=== FILE: README.md ===
# CHIP-8 interpreter core, modelled in Dafny

This project models the CHIP-8 interpreter of `MauiEmu/Emulator/Chip8/Chip8.cs`.
The C# class owns 4 KiB of memory with the hexadecimal font at 0x50, sixteen
8-bit registers V0..VF, a 16-bit index register I, a 16-bit program counter, a
return-address stack, and the delay and sound timers. It copies a ROM to
0x200 and then, once per 60 Hz frame, takes a key snapshot, counts both timers
down (stopping at zero) and runs a batch of 700 / 60 = 11 instructions. Each
instruction is fetched from PC and PC + 1, PC moves on by two, the word is
split into the fields C, X, Y, N, NN and NNN, and a `switch` on C executes it.
DXYN draws into the 64 x 32 framebuffer, which the source keeps in the static
`Display.Pixels` array of `MainPage.xaml.cs`.

The model is purely functional:

- `Machine.State` is an immutable value holding memory, registers, I, PC, the
  stack (its top is the last element), the timers and the framebuffer.
- `Interpreter.Step(s, key, rnd)` executes one instruction. `key` is the frame's
  key snapshot (`char?` in C#). `rnd` is the random byte that `new Random()`
  would supply.
- An exception of the source becomes `Err(fault)`: an index past the end of
  memory, or `Pop` on an empty stack.
- Bytes and `ushort`s are bounded naturals, and every wrap-around is written
  out as `% 256` or `% 65536`.
- `&`, `|` and `^` are defined one binary digit at a time (module `Bits`).

Modules:

- `Bits`: machine integers and bitwise operators.
- `Display`: the framebuffer.
- `Decoder`: instruction fields.
- `Machine`: state, construction and ROM load.
- `Draw`: the DXYN loops.
- `Interpreter`: fetch, execute, batch and frame.
- Property modules: `AluProperties`, `ControlFlow`, `MemoryProperties`,
  `DrawProperties` and `FrameProperties`.

Where the code and the behaviour usually described for CHIP-8 differ, the model
follows the code:

- The stack has no 16-entry limit: `new Stack<ushort>(16)` only sets an
  initial capacity, so 2NNN never fails.
- There are no quirk switches. Shifts act on VX in place, BNNN adds V0,
  FX1E sets VF when I reaches 0x1000, and FX55/FX65 leave I unchanged.
- 8XY4 sets VF on overflow but never clears it.
- 8XY5 and 8XY7 use a strict `>`, so equal operands give VF = 0.
- FX0A does not store the pressed key in VX.
- FX33 writes a value below 100 left-aligned (see `MemoryProperties.BcdTwoDigits`).
- 5XYN and 9XYN compare VX with VY whatever N is.
- CXNN is `new Random().Next(NN) & NN`, not a uniform random byte masked with NN. For NN > 0, `Next(NN)` is below NN, so the result is never NN. CX00 always gives 0 (`Next(0)` is 0). For a mask with a single set bit the result is always 0 (see `AluProperties.RandomSingleBit`).
- An oversized ROM is not rejected with an error of its own: `Buffer.BlockCopy`
  would throw, so `LoadRom` requires a ROM of at most 3584 bytes.
- An I or PC past memory is not checked in advance. The fault occurs where the
  array access would throw, and its index is the first address past the end
  of memory.

## Model

| member | source | states |
|---|---|---|
| Bits.AndByte | MauiEmu/Emulator/Chip8/Chip8.cs:150 | bit k of `a & b` is set iff bit k is set in both operands, so the result is at most each operand |
| Bits.OrByte | MauiEmu/Emulator/Chip8/Chip8.cs:147 | bit k of `a \| b` is set iff bit k is set in either operand; the result is at least each operand and still a byte |
| Bits.XorByte | MauiEmu/Emulator/Chip8/Chip8.cs:153 | bit k of `a ^ b` is set iff exactly one operand has it set, and XOR-ing the result with `b` again gives `a` |
| Bits.AddByte | MauiEmu/Emulator/Chip8/Chip8.cs:138 | `(byte)(a + b)` is the sum when it fits, otherwise the sum minus 256 |
| Bits.SubByte | MauiEmu/Emulator/Chip8/Chip8.cs:165 | `(byte)(a - b)` is the difference when a >= b, otherwise the difference plus 256 |
| Bits.AddWord | MauiEmu/Emulator/Chip8/Chip8.cs:88 | `ushort` addition wraps modulo 65536, for both positive and negative offsets |
| Bits.XorInvolutive | MauiEmu/Emulator/Chip8/Chip8.cs:152-154 | `(a ^ b) ^ b == a` for all naturals |
| Bits.LowNibble | MauiEmu/Emulator/Chip8/Chip8.cs:275 | `a & 0xF` is `a mod 16` |
| Bits.LowBit | MauiEmu/Emulator/Chip8/Chip8.cs:177 | `a & 1` is `a mod 2` |
| Bits.OrDisjoint | MauiEmu/Emulator/Chip8/Chip8.cs:97 | OR-ing a shifted field with a value below the shift adds them |
| Bits.AndBit | MauiEmu/Emulator/Chip8/Chip8.cs:150 | the digit-by-digit `And` sets bit k iff both operands have bit k set |
| Bits.OrBit | MauiEmu/Emulator/Chip8/Chip8.cs:147 | the digit-by-digit `Or` sets bit k iff either operand has bit k set |
| Bits.XorBit | MauiEmu/Emulator/Chip8/Chip8.cs:153 | the digit-by-digit `Xor` sets bit k iff exactly one operand has bit k set |
| Bits.BitwiseBits | MauiEmu/Emulator/Chip8/Chip8.cs:147-153 | the same three facts at every bit position at once |
| Bits.AndBelowPow2 | MauiEmu/Emulator/Chip8/Chip8.cs:201 | AND with a power of two above every bit of the other operand is 0 |
| Decoder.Decode | MauiEmu/Emulator/Chip8/Chip8.cs:92-97 | the fields rebuild the word: msb = 16 C + X, lsb = 16 Y + N, NN = lsb, NNN = 256 X + lsb < 0x1000 |
| Decoder.DecodeEncode | MauiEmu/Emulator/Chip8/Chip8.cs:92-97 | decoding the word made of four nibbles gives back those nibbles |
| Decoder.EncodeDecode | MauiEmu/Emulator/Chip8/Chip8.cs:92-97 | re-encoding the decoded nibbles gives back both fetched bytes, so decoding loses nothing |
| Decoder.NnnIsLowTwelveBits | MauiEmu/Emulator/Chip8/Chip8.cs:97 | NNN equals `((msb & 0xF) << 8) \| lsb` |
| Decoder.DecodeImm | MauiEmu/Emulator/Chip8/Chip8.cs:92-97 | decoding the bytes 16 C + X and NN gives C, X, the two nibbles of NN, NN and 256 X + NN |
| Display.Blank | MauiEmu/MainPage.xaml.cs:161 | a new `bool[64, 32]` has every pixel off |
| Display.SetPixel | MauiEmu/MainPage.xaml.cs:163-166 | the one pixel takes the new value and no other pixel changes |
| Display.PixelsDetermine | MauiEmu/MainPage.xaml.cs:161 | two 64 x 32 framebuffers that agree on every pixel are equal |
| Machine.BlockCopy | MauiEmu/Emulator/Chip8/Chip8.cs:49 | the copied bytes land at the offset and no other byte changes |
| Machine.Init | MauiEmu/Emulator/Chip8/Chip8.cs:10-44 | after construction the font table lies at 0x50..0x9F and all other memory, registers, I, PC, timers and the stack are zero or empty; the framebuffer is all off, as the static `Display.Pixels` initializer at MauiEmu/MainPage.xaml.cs:161 leaves it |
| Machine.LoadRom | MauiEmu/Emulator/Chip8/Chip8.cs:49-52 | ROM byte k lands at 0x200 + k, other memory is unchanged, PC is 0x200, nothing else changes |
| Machine.LoadKeepsFont | MauiEmu/Emulator/Chip8/Chip8.cs:43-49 | loading a ROM into a new interpreter keeps the font intact |
| Draw.RowCount | MauiEmu/Emulator/Chip8/Chip8.cs:210-231 | the row loop visits min(N, 32 - y) rows: no more than N, never past row 31 |
| Draw.DrawColumnsPixel | MauiEmu/Emulator/Chip8/Chip8.cs:214-230 | one sprite row flips exactly the pixels of its screen row under a set bit, from its column up to column 63 |
| Draw.DrawColumnsPixels | MauiEmu/Emulator/Chip8/Chip8.cs:214-230 | the same for all pixels at once |
| Draw.DrawColumnsHit | MauiEmu/Emulator/Chip8/Chip8.cs:216-224 | one sprite row reports a collision iff one of the pixels it flips was on |
| Draw.DrawRowsFaults | MauiEmu/Emulator/Chip8/Chip8.cs:210-212 | the row loop faults iff a visited row's address I + r is past memory |
| Draw.DrawRowsPixel | MauiEmu/Emulator/Chip8/Chip8.cs:210-232 | a completed row loop flips a pixel iff a set sprite bit covers it (clipped at the edges) |
| Draw.DrawRowsPixels | MauiEmu/Emulator/Chip8/Chip8.cs:210-232 | the same for all pixels at once |
| Draw.DrawRowsHit | MauiEmu/Emulator/Chip8/Chip8.cs:208-232 | a completed row loop reports a collision iff some covered pixel was on before |
| Interpreter.Fetch | MauiEmu/Emulator/Chip8/Chip8.cs:86 | the fetch succeeds iff PC + 1 is inside memory, and then decodes the bytes at PC and PC + 1 |
| Interpreter.RandomBelow | MauiEmu/Emulator/Chip8/Chip8.cs:201 | `Next(NN)` is below NN, or 0 when NN is 0 |
| Interpreter.RandomBelowCovers | MauiEmu/Emulator/Chip8/Chip8.cs:201 | every value below NN is produced by some random byte |
| Interpreter.StepFetched | MauiEmu/Emulator/Chip8/Chip8.cs:86-99 | a step whose fetch yields an instruction executes exactly that instruction with PC + 2 |
| Interpreter.StoreRegs | MauiEmu/Emulator/Chip8/Chip8.cs:299-302 | exactly the `count` bytes from the base take V0.. in order, all other bytes are unchanged |
| Interpreter.LoadRegs | MauiEmu/Emulator/Chip8/Chip8.cs:305-308 | exactly the first `count` registers take the bytes from the base, the others are unchanged |
| Interpreter.StepAt | MauiEmu/Emulator/Chip8/Chip8.cs:86-99 | a step on the word C X NN decodes it to (C, X, NN / 16, NN % 16, NN, 256 X + NN) and executes it with PC + 2 |
| Interpreter.StepWord | MauiEmu/Emulator/Chip8/Chip8.cs:86-99 | a step on the word C X Y N executes exactly that instruction with PC + 2 |
| AluProperties.LoadImmediate | MauiEmu/Emulator/Chip8/Chip8.cs:132-135 | 6XNN sets VX to NN and PC to PC + 2, nothing else |
| AluProperties.AddImmediate | MauiEmu/Emulator/Chip8/Chip8.cs:136-139 | 7XNN sets VX to (VX + NN) mod 256 with no flag, and touches no other register |
| AluProperties.StepAlu | MauiEmu/Emulator/Chip8/Chip8.cs:140-188 | a step on 8XYN changes only the registers and PC |
| AluProperties.Bitwise | MauiEmu/Emulator/Chip8/Chip8.cs:143-154 | 8XY0..8XY3 set VX to VY, OR, AND or XOR, change only VX, with OR above and AND below both operands |
| AluProperties.XorTwiceRestores | MauiEmu/Emulator/Chip8/Chip8.cs:152-154 | two 8XY3 in a row with X != Y restore every register |
| AluProperties.AddWithCarry | MauiEmu/Emulator/Chip8/Chip8.cs:155-158 | 8XY4: VX = (a + b) mod 256; VF = 1 if a + b > 255, otherwise VF keeps its old value |
| AluProperties.AddCarryClobbersOperand | MauiEmu/Emulator/Chip8/Chip8.cs:155-158 | 8XF4: on overflow the flag is written first, so VX becomes VX + 1 |
| AluProperties.AluSubtract | MauiEmu/Emulator/Chip8/Chip8.cs:159-174 | on the register file, 8XY5/8XY7 put the difference mod 256 in VX, 1 in VF iff the minuend is strictly greater, and keep every other register |
| AluProperties.Subtract | MauiEmu/Emulator/Chip8/Chip8.cs:159-174 | 8XY5/8XY7: VX is the difference mod 256, and VF = 1 iff the minuend is strictly greater (both directions) |
| AluProperties.Shift | MauiEmu/Emulator/Chip8/Chip8.cs:175-184 | 8XY6/8XYE shift VX in place, ignoring VY; VF takes the bit shifted out |
| AluProperties.ShiftIntoFlag | MauiEmu/Emulator/Chip8/Chip8.cs:175-179 | 8FY6 always leaves VF at 0 |
| AluProperties.Random | MauiEmu/Emulator/Chip8/Chip8.cs:200-202 | CXNN sets VX to `Next(NN) & NN`: below NN, or 0 when NN is 0, and nothing else changes |
| AluProperties.RandomSingleBit | MauiEmu/Emulator/Chip8/Chip8.cs:200-202 | CXNN with a single-bit mask NN = 2^j always leaves VX at 0 |
| ControlFlow.FetchPastEnd | MauiEmu/Emulator/Chip8/Chip8.cs:86 | a PC whose two bytes are not both inside memory faults at the first missing index |
| ControlFlow.StepAdvancesPc | MauiEmu/Emulator/Chip8/Chip8.cs:88 | every instruction that does not jump, call, return, skip or wait ends with PC + 2 |
| ControlFlow.ConditionalSkip | MauiEmu/Emulator/Chip8/Chip8.cs:120-131 | 3XNN/4XNN/5XY0/9XY0 end at PC + 4 iff the condition holds, otherwise at PC + 2, and change nothing else |
| ControlFlow.SystemNoOp | MauiEmu/Emulator/Chip8/Chip8.cs:101-110 | a 0XNN word other than 00E0 and 00EE only moves PC on by 2 |
| ControlFlow.AluNoOp | MauiEmu/Emulator/Chip8/Chip8.cs:185-186 | an 8XYN word whose N is not an ALU operation only moves PC on by 2 |
| ControlFlow.KeyNoOp | MauiEmu/Emulator/Chip8/Chip8.cs:234-250 | an EXNN word other than EX9E and EXA1 only moves PC on by 2 |
| ControlFlow.MiscNoOp | MauiEmu/Emulator/Chip8/Chip8.cs:310-311 | an FXNN word whose low byte is none of the nine handled values only moves PC on by 2 |
| ControlFlow.Jump | MauiEmu/Emulator/Chip8/Chip8.cs:111-114 | 1NNN sets PC to NNN and changes nothing else |
| ControlFlow.JumpOffset | MauiEmu/Emulator/Chip8/Chip8.cs:197-199 | BNNN sets PC to NNN + V0, which is at most 0x10FE |
| ControlFlow.CallThenReturn | MauiEmu/Emulator/Chip8/Chip8.cs:106-119 | 2NNN pushes PC + 2 and jumps; a 00EE at NNN then restores the stack and resumes at PC + 2 |
| ControlFlow.Return | MauiEmu/Emulator/Chip8/Chip8.cs:106-109 | 00EE on an empty stack faults; otherwise it pops the top into PC |
| ControlFlow.KeySkips | MauiEmu/Emulator/Chip8/Chip8.cs:234-250 | EX9E skips iff a key is pressed whose code equals VX; EXA1 skips otherwise, including when no key is pressed |
| ControlFlow.WaitForKeyBlocks | MauiEmu/Emulator/Chip8/Chip8.cs:268-273 | FX0A with no key leaves the whole state unchanged |
| ControlFlow.WaitForKeyProceeds | MauiEmu/Emulator/Chip8/Chip8.cs:268-273 | FX0A with a key proceeds to PC + 2 without storing the key |
| MemoryProperties.SetIndex | MauiEmu/Emulator/Chip8/Chip8.cs:193-196 | ANNN sets I to NNN and changes nothing else |
| MemoryProperties.StepMisc | MauiEmu/Emulator/Chip8/Chip8.cs:251-253 | a step on FXNN is the `switch (lsb)` of category F applied with PC + 2 |
| MemoryProperties.Timers | MauiEmu/Emulator/Chip8/Chip8.cs:254-262 | FX07 copies the delay timer to VX; FX15 and FX18 copy VX to the delay and sound timers |
| MemoryProperties.AddToIndex | MauiEmu/Emulator/Chip8/Chip8.cs:263-267 | FX1E sets I to (I + VX) mod 65536; VF becomes 1 if the new I >= 0x1000, otherwise it is kept |
| MemoryProperties.FontCharacter | MauiEmu/Emulator/Chip8/Chip8.cs:274-278 | FX29 sets I to 0x50 + 5 (VX & 0xF), which is at most 0x9B, so the glyph lies inside the font |
| MemoryProperties.FontGlyph | MauiEmu/Emulator/Chip8/Chip8.cs:274-278 | with the font intact, the five bytes at the new I are the glyph of the digit VX & 0xF |
| MemoryProperties.StepBcd | MauiEmu/Emulator/Chip8/Chip8.cs:279-280 | a step on FX33 is the decimal conversion of VX |
| MemoryProperties.BcdFaults | MauiEmu/Emulator/Chip8/Chip8.cs:282-296 | FX33 faults iff the first byte it writes, its highest address (I + 2, I + 1 or I, by digit count), is past memory, so a faulting FX33 has written nothing |
| MemoryProperties.BcdThreeDigits | MauiEmu/Emulator/Chip8/Chip8.cs:282-287 | for n >= 100, the digits at I, I+1, I+2 are each below 10, satisfy 100 d0 + 10 d1 + d2 = n, and nothing else changes |
| MemoryProperties.BcdTwoDigits | MauiEmu/Emulator/Chip8/Chip8.cs:288-292 | for 10 <= n < 100 the tens go to I and the units to I + 1; I + 2 is untouched |
| MemoryProperties.BcdOneDigit | MauiEmu/Emulator/Chip8/Chip8.cs:293-296 | for n < 10 only I is written, with n |
| MemoryProperties.MiscStore | MauiEmu/Emulator/Chip8/Chip8.cs:298-303 | the FX55 branch faults iff I + X is past memory, otherwise writes V0..VX to I..I+X and changes nothing but those bytes |
| MemoryProperties.MiscLoad | MauiEmu/Emulator/Chip8/Chip8.cs:304-309 | the FX65 branch faults iff I + X is past memory, otherwise reads I..I+X into V0..VX and changes nothing but those registers |
| MemoryProperties.StoreRegisters | MauiEmu/Emulator/Chip8/Chip8.cs:298-303 | FX55 faults iff I + X is past memory; otherwise it copies V0..VX to I..I+X, and I, the registers and other memory are unchanged |
| MemoryProperties.LoadRegisters | MauiEmu/Emulator/Chip8/Chip8.cs:304-309 | FX65 faults iff I + X is past memory; otherwise it copies I..I+X to V0..VX, and I, memory and the higher registers are unchanged |
| MemoryProperties.StoreThenLoad | MauiEmu/Emulator/Chip8/Chip8.cs:298-309 | FX55 followed by FX65 with the same X and I gives back V0..VX, with I unchanged by both |
| DrawProperties.ClearScreen | MauiEmu/Emulator/Chip8/Chip8.cs:102-105 | 00E0 turns every pixel off and changes nothing else |
| DrawProperties.StepDraw | MauiEmu/Emulator/Chip8/Chip8.cs:203-233 | a step on DXYN draws the sprite with PC already advanced |
| DrawProperties.DrawFaults | MauiEmu/Emulator/Chip8/Chip8.cs:210-212 | DXYN faults iff it visits a row and I + (rows visited) is past memory |
| DrawProperties.DrawEffect | MauiEmu/Emulator/Chip8/Chip8.cs:206-232 | DXYN flips exactly the covered on-screen pixels, sets VF = 1 iff one was on (0 otherwise), and changes nothing else |
| DrawProperties.DrawOnBlank | MauiEmu/Emulator/Chip8/Chip8.cs:208-224 | drawing on a blank screen leaves VF at 0 |
| DrawProperties.DrawTwiceRestores | MauiEmu/Emulator/Chip8/Chip8.cs:203-233 | drawing the same sprite twice (X, Y != F) restores the framebuffer |
| DrawProperties.StepDrawTwice | MauiEmu/Emulator/Chip8/Chip8.cs:203-233 | two identical DXYN in a row leave the screen as it was and PC at PC + 4 |
| FrameProperties.TickTimersEffect | MauiEmu/Emulator/Chip8/Chip8.cs:67-68 | the frame decrement lowers each non-zero timer by one, keeps zero at zero and touches nothing else |
| FrameProperties.TimersAfterTicks | MauiEmu/Emulator/Chip8/Chip8.cs:67-68 | after k frames a timer that started at d reads max(d - k, 0) |
| FrameProperties.RunBatchAppend | MauiEmu/Emulator/Chip8/Chip8.cs:81-84 | a batch over a + b runs a and then, unless it faulted, b |
| FrameProperties.BlockedBatch | MauiEmu/Emulator/Chip8/Chip8.cs:268-273 | while FX0A waits with no key, a batch of any length changes nothing |
| FrameProperties.BlockedFrame | MauiEmu/Emulator/Chip8/Chip8.cs:64-71 | a frame spent waiting for a key only counts the timers down |
| FrameProperties.BatchSizeValue | MauiEmu/Emulator/Chip8/Chip8.cs:19 | 700 instructions per second gives 11 instructions per frame |
| FrameProperties.AddProgramAt | MauiEmu/Emulator/Chip8/Chip8.cs:132-158 | the program 600A 6105 8014 leaves 15 in V0 and 5 in V1, keeps VF, and ends six bytes on |
| FrameProperties.AddProgram | MauiEmu/Emulator/Chip8/Chip8.cs:21-52 | loaded into a fresh interpreter, the same program ends with V0 = 15 and VF = 0 at 0x206 |

## Left out

- The wall-clock frame loop (`Stopwatch`, `Task.Delay`, `while (true)`, `async`) is left out. `FrameTick` is one pass of that loop, and the timing has no logical effect.
- `MessagingCenter.Send(this, "draw")` is left out: it is a render signal to the UI with no effect on the state.
- The distribution of `System.Random` is not modelled. The random value is an input byte, and `RandomBelow` maps it into the range `Next(NN)` can return.
- The UI, rendering and key capture (`MainPage.xaml.cs` apart from `Display`, `UI/Pages/Index.razor.cs`, `DrawMessage.cs`) are not part of this model. The key snapshot is an input of every step.
- Partial writes before an exception are not kept. When DXYN, FX55 or FX65 faults part-way, the model returns only the fault. In C#, the writes made before the throw remain: the pixels of DXYN's earlier rows and VF as those rows left it (0, or 1 after a collision), the bytes FX55 has already stored, and the registers V0.. that FX65 has already loaded. The exception ends the interpreter loop anyway. FX33 is not affected: it writes its highest address first, so when it faults it has written nothing.
- `Interpreter.Step`, `Interpreter.Execute`, `Interpreter.Alu`, `Interpreter.DrawSprite`, `Interpreter.Misc`, `Interpreter.Bcd`, `Interpreter.RunBatch` and `Interpreter.FrameTick`: their own contracts state only that the state keeps its shape. What each instruction computes is stated by the lemmas of the property modules listed above.
- `Interpreter.TickTimers` has no contract of its own. Its saturating decrement of both timers is stated by `FrameProperties.TickTimersEffect` and `FrameProperties.TimersAfterTicks`.
- `Draw.DrawColumns` and `Draw.DrawRows`: their own contracts state only that the framebuffer keeps its shape. Which pixels they flip and when they report a collision are stated by `Draw.DrawColumnsPixel`, `Draw.DrawColumnsHit`, `Draw.DrawRowsPixel`, `Draw.DrawRowsHit` and `Draw.DrawRowsFaults`.
- `Interpreter.KeyEquals` and `Interpreter.SkipIf` have no contracts of their own. The lifted `char?` comparison and the skip they drive are stated by `ControlFlow.KeySkips` and `ControlFlow.ConditionalSkip`.
- `Bits.And`, `Bits.Or` and `Bits.Xor` have no contracts of their own. Their bit-by-bit meaning is stated by `Bits.AndBit`, `Bits.OrBit`, `Bits.XorBit` and `Bits.BitwiseBits`, and their arithmetic consequences by `Bits.AndBounded`, `Bits.OrBounds`, `Bits.LowBit` and `Bits.LowNibble`.

=== FILE: alu_properties.dfy ===
/** What the register instructions 6XNN, 7XNN, 8XYN and CXNN compute, stated
    over bytes as naturals modulo 256. */
module AluProperties {
  import opened Bits
  import opened Decoder
  import opened Machine
  import opened Interpreter

  /** 6XNN loads NN into VX and changes nothing else. */
  lemma LoadImmediate(s: State, key: Key, rnd: byte, x: nibble, nn: byte)
    requires Valid(s) && ImmAt(s, 0x6, x, nn)
    ensures Step(s, key, rnd) == Ok(s.(pc := s.pc + 2, v := s.v[x := nn]))
  {
    StepAt(s, key, rnd, 0x6, x, nn);
  }

  /** 7XNN adds NN to VX modulo 256, sets no flag and changes nothing else. */
  lemma AddImmediate(s: State, key: Key, rnd: byte, x: nibble, nn: byte)
    requires Valid(s) && ImmAt(s, 0x7, x, nn)
    ensures Step(s, key, rnd).Ok?
    ensures var t := Step(s, key, rnd).value;
      && t.v[x] == (s.v[x] + nn) % 256
      && (forall r :: 0 <= r < 16 && r != x ==> t.v[r] == s.v[r])
      && t == s.(pc := s.pc + 2, v := t.v)
  {
    StepAt(s, key, rnd, 0x7, x, nn);
  }

  /** A step on 8XYN applies the N-th ALU operation to the registers and
      changes nothing else. */
  lemma StepAlu(s: State, key: Key, rnd: byte, x: nibble, y: nibble, n: nibble)
    requires Valid(s) && WordAt(s, 0x8, x, y, n)
    ensures Step(s, key, rnd) == Ok(s.(pc := s.pc + 2, v := Alu(s.v, x, y, n)))
  {
    StepWord(s, key, rnd, 0x8, x, y, n);
  }

  /** 8XY0 to 8XY3 put VY, VX | VY, VX & VY or VX ^ VY into VX and change
      nothing else; OR is above both operands, AND below both. */
  lemma Bitwise(s: State, key: Key, rnd: byte, x: nibble, y: nibble, n: nibble)
    requires Valid(s) && WordAt(s, 0x8, x, y, n) && n <= 3
    ensures Step(s, key, rnd).Ok?
    ensures var t := Step(s, key, rnd).value;
      var a: int, b: int := s.v[x], s.v[y];
      && t == s.(pc := s.pc + 2, v := s.v[x := t.v[x]])
      && (n == 0 ==> t.v[x] == b)
      && (n == 1 ==> t.v[x] == Or(a, b) && a <= t.v[x] && b <= t.v[x])
      && (n == 2 ==> t.v[x] == And(a, b) && t.v[x] <= a && t.v[x] <= b)
      && (n == 3 ==> t.v[x] == Xor(a, b))
  {
    StepAlu(s, key, rnd, x, y, n);
  }

  /** Two 8XY3 in a row with X != Y give VX back. */
  lemma XorTwiceRestores(s: State, key: Key, r1: byte, r2: byte, x: nibble, y: nibble)
    requires Valid(s) && WordAt(s, 0x8, x, y, 3) && x != y
    requires s.pc + 3 < MemSize && s.mem[s.pc + 2] == s.mem[s.pc] && s.mem[s.pc + 3] == s.mem[s.pc + 1]
    ensures Step(s, key, r1).Ok?
    ensures var t := Step(s, key, r1).value;
      Step(t, key, r2) == Ok(s.(pc := s.pc + 4))
  {
    StepAlu(s, key, r1, x, y, 3);
    var t := Step(s, key, r1).value;
    assert WordAt(t, 0x8, x, y, 3);
    StepAlu(t, key, r2, x, y, 3);
    assert Xor(t.v[x], s.v[y]) == s.v[x];
    assert t.v[x := s.v[x]] == s.v;
  }

  /** 8XY4 with X, Y != F: VX is the sum modulo 256, and VF becomes 1 when
      the sum exceeds 255 but otherwise keeps its old value. */
  lemma AddWithCarry(s: State, key: Key, rnd: byte, x: nibble, y: nibble)
    requires Valid(s) && WordAt(s, 0x8, x, y, 4) && x != 0xF && y != 0xF
    ensures Step(s, key, rnd).Ok?
    ensures var t := Step(s, key, rnd).value;
      var a: int, b: int := s.v[x], s.v[y];
      && t.v[x] == (a + b) % 256
      && t.v[0xF] == (if a + b > 255 then 1 else s.v[0xF])
      && (forall r :: 0 <= r < 16 && r != x && r != 0xF ==> t.v[r] == s.v[r])
      && t == s.(pc := s.pc + 2, v := t.v)
  {
    StepAlu(s, key, rnd, x, y, 4);
  }

  /** 8XF4 with X != F: the carry is stored in VF before VF is read as the
      second operand, so on overflow VX becomes VX + 1 rather than VX + VF. */
  lemma AddCarryClobbersOperand(s: State, key: Key, rnd: byte, x: nibble)
    requires Valid(s) && WordAt(s, 0x8, x, 0xF, 4) && x != 0xF
    ensures Step(s, key, rnd).Ok?
    ensures var t := Step(s, key, rnd).value;
      var a: int, b: int := s.v[x], s.v[0xF];
      && t.v[x] == (if a + b > 255 then (a + 1) % 256 else a + b)
      && t.v[0xF] == (if a + b > 255 then 1 else b)
  {
    StepAlu(s, key, rnd, x, 0xF, 4);
  }

  /** The register effect of 8XY5 and 8XY7 with X, Y != F. */
  lemma AluSubtract(v: seq<byte>, x: nibble, y: nibble, n: nibble)
    requires |v| == 16 && (n == 5 || n == 7) && x != 0xF && y != 0xF
    ensures var r := Alu(v, x, y, n);
      var a: int, b: int := v[x], v[y];
      var (m, d) := if n == 5 then (a, b) else (b, a);
      && r[x] == (m - d) % 256
      && r[0xF] == (if m > d then 1 else 0)
      && (forall k :: 0 <= k < 16 && k != x && k != 0xF ==> r[k] == v[k])
  {
  }

  /** 8XY5 and 8XY7 with X, Y != F: VX is the difference modulo 256, and VF
      is 1 exactly when the minuend is strictly greater than the subtrahend
      (equal operands give 0). */
  lemma Subtract(s: State, key: Key, rnd: byte, x: nibble, y: nibble, n: nibble)
    requires Valid(s) && WordAt(s, 0x8, x, y, n) && (n == 5 || n == 7) && x != 0xF && y != 0xF
    ensures Step(s, key, rnd).Ok?
    ensures var t := Step(s, key, rnd).value;
      var a: int, b: int := s.v[x], s.v[y];
      var (m, d) := if n == 5 then (a, b) else (b, a);
      && t.v[x] == (m - d) % 256
      && (t.v[0xF] == 1 <==> m > d)
      && (t.v[0xF] == 0 <==> m <= d)
      && (forall r :: 0 <= r < 16 && r != x && r != 0xF ==> t.v[r] == s.v[r])
      && t == s.(pc := s.pc + 2, v := t.v)
  {
    StepAlu(s, key, rnd, x, y, n);
    AluSubtract(s.v, x, y, n);
  }

  /** 8XY6 and 8XYE with X != F shift VX in place, ignoring VY: 8XY6 puts
      the low bit in VF and halves VX; 8XYE puts the top bit in VF and
      doubles VX modulo 256. */
  lemma Shift(s: State, key: Key, rnd: byte, x: nibble, y: nibble, n: nibble)
    requires Valid(s) && WordAt(s, 0x8, x, y, n) && (n == 6 || n == 0xE) && x != 0xF
    ensures Step(s, key, rnd).Ok?
    ensures var t := Step(s, key, rnd).value;
      var a: int := s.v[x];
      && (n == 6 ==> t.v[0xF] == a % 2 && t.v[x] == a / 2)
      && (n == 0xE ==> t.v[0xF] == a / 128 && t.v[x] == (2 * a) % 256)
      && (forall r :: 0 <= r < 16 && r != x && r != 0xF ==> t.v[r] == s.v[r])
      && t == s.(pc := s.pc + 2, v := t.v)
  {
    StepAlu(s, key, rnd, x, y, n);
    LowBit(s.v[x]);
    LowBit(s.v[x] / 128);
  }

  /** 8FY6: the flag is written first and then shifted, so VF always ends
      at 0. */
  lemma ShiftIntoFlag(s: State, key: Key, rnd: byte, y: nibble)
    requires Valid(s) && WordAt(s, 0x8, 0xF, y, 6)
    ensures Step(s, key, rnd).Ok?
    ensures Step(s, key, rnd).value.v[0xF] == 0
  {
    StepAlu(s, key, rnd, 0xF, y, 6);
    LowBit(s.v[0xF]);
  }

  /** CXNN sets VX to `Next(NN) & NN`: a value at most NN and, since
      `Next(NN)` is below NN, strictly below NN unless NN is 0, when it is 0. */
  lemma Random(s: State, key: Key, rnd: byte, x: nibble, nn: byte)
    requires Valid(s) && ImmAt(s, 0xC, x, nn)
    ensures Step(s, key, rnd).Ok?
    ensures var t := Step(s, key, rnd).value;
      && t.v[x] == And(RandomBelow(rnd, nn), nn)
      && (nn == 0 ==> t.v[x] == 0) && (nn > 0 ==> t.v[x] < nn)
      && t == s.(pc := s.pc + 2, v := s.v[x := t.v[x]])
  {
    StepAt(s, key, rnd, 0xC, x, nn);
    AndBounded(RandomBelow(rnd, nn), nn);
  }

  /** CXNN with a single-bit mask NN = 2^j always clears VX: `Next(NN)` is
      below NN, so it never has the one bit the mask keeps. */
  lemma RandomSingleBit(s: State, key: Key, rnd: byte, x: nibble, nn: byte, j: nat)
    requires Valid(s) && ImmAt(s, 0xC, x, nn) && nn == Pow2(j)
    ensures Step(s, key, rnd).Ok? && Step(s, key, rnd).value.v[x] == 0
  {
    Random(s, key, rnd, x, nn);
    AndBelowPow2(RandomBelow(rnd, nn), j);
  }
}

=== FILE: bits.dfy ===
/** Unsigned machine integers of the interpreter, as bounded naturals.

  C# `byte` and `ushort` become the subset types `byte` and `word`; every
  wrap-around of the source is written out as an explicit `%`.  The bitwise
  operators `&`, `|` and `^` are defined one binary digit at a time, so that
  their arithmetic meaning can be proved by induction instead of being
  assumed.
 */
module Bits {

  type byte = x: nat | x < 0x100
  type word = x: nat | x < 0x1_0000
  type nibble = x: nat | x < 0x10

  function Pow2(k: nat): (p: nat)
    ensures p >= 1
  {
    if k == 0 then 1 else 2 * Pow2(k - 1)
  }

  /** Bitwise AND (`a & b`). */
  function And(a: nat, b: nat): (r: nat)
    decreases a + b
  {
    if a == 0 || b == 0 then 0
    else 2 * And(a / 2, b / 2) + (if a % 2 == 1 && b % 2 == 1 then 1 else 0)
  }

  /** Bitwise OR (`a | b`). */
  function Or(a: nat, b: nat): (r: nat)
    decreases a + b
  {
    if a == 0 then b
    else if b == 0 then a
    else 2 * Or(a / 2, b / 2) + (if a % 2 == 1 || b % 2 == 1 then 1 else 0)
  }

  /** Bitwise exclusive OR (`a ^ b`). */
  function Xor(a: nat, b: nat): (r: nat)
    decreases a + b
  {
    if a == 0 then b
    else if b == 0 then a
    else 2 * Xor(a / 2, b / 2) + (if a % 2 != b % 2 then 1 else 0)
  }

  /** AND never sets a bit that either operand lacks, so it is below both. */
  lemma {:induction false} AndBounded(a: nat, b: nat)
    ensures And(a, b) <= a && And(a, b) <= b
    decreases a + b
  {
    if a != 0 && b != 0 {
      AndBounded(a / 2, b / 2);
    }
  }

  /** OR keeps every bit of both operands and never carries. */
  lemma {:induction false} OrBounds(a: nat, b: nat)
    ensures a <= Or(a, b) && b <= Or(a, b) && Or(a, b) <= a + b
    decreases a + b
  {
    if a != 0 && b != 0 {
      OrBounds(a / 2, b / 2);
    }
  }

  /** OR and XOR of two k-bit numbers are k-bit numbers. */
  lemma {:induction false} BitwiseBelowPow2(a: nat, b: nat, k: nat)
    requires a < Pow2(k) && b < Pow2(k)
    ensures Or(a, b) < Pow2(k) && Xor(a, b) < Pow2(k)
  {
    if k > 0 && a != 0 && b != 0 {
      BitwiseBelowPow2(a / 2, b / 2, k - 1);
    }
  }

  lemma {:induction false} XorSelf(a: nat)
    ensures Xor(a, a) == 0
    decreases a
  {
    if a != 0 {
      XorSelf(a / 2);
    }
  }

  /** XOR with the same operand twice is the identity. */
  lemma {:induction false} XorInvolutive(a: nat, b: nat)
    ensures Xor(Xor(a, b), b) == a
    decreases a + b
  {
    if a == 0 {
      XorSelf(b);
    } else if b != 0 {
      var c := Xor(a, b);
      if c == 0 {
        XorZero(a, b);
      } else {
        XorInvolutive(a / 2, b / 2);
        assert c / 2 == Xor(a / 2, b / 2);
      }
    }
  }

  /** Only equal operands have a zero XOR. */
  lemma {:induction false} XorZero(a: nat, b: nat)
    requires Xor(a, b) == 0
    ensures a == b
    decreases a + b
  {
    if a != 0 && b != 0 {
      XorZero(a / 2, b / 2);
    }
  }

  /** Masking with 1 keeps the lowest bit (`a & 1`). */
  lemma LowBit(a: nat)
    ensures And(a, 1) == a % 2
  {
  }

  /** AND with an odd mask 2m + 1 keeps the lowest bit and ANDs the rest
      with m. */
  lemma AndOddMask(a: nat, m: nat)
    ensures And(a, 2 * m + 1) == 2 * And(a / 2, m) + a % 2
  {
  }

  /** Masking with 0xF keeps the low nibble (`a & 0xF`). */
  lemma LowNibble(a: nat)
    ensures And(a, 0xF) == a % 16
  {
    var a1 := a / 2;
    var a2 := a1 / 2;
    var a3 := a2 / 2;
    LowBit(a3);
    AndOddMask(a2, 1);
    AndOddMask(a1, 3);
    AndOddMask(a, 7);
    assert a % 16 == 8 * (a3 % 2) + 4 * (a2 % 2) + 2 * (a1 % 2) + a % 2;
  }

  /** Bit k of a, counting from the least significant: `((a >> k) & 1) == 1`. */
  predicate Bit(a: nat, k: nat)
  {
    if k == 0 then a % 2 == 1 else Bit(a / 2, k - 1)
  }

  /** Zero has no set bit. */
  lemma {:induction false} BitZero(k: nat)
    ensures !Bit(0, k)
    decreases k
  {
    if k > 0 {
      BitZero(k - 1);
    }
  }

  /** Bit k of `a & b` is set iff it is set in both operands. */
  lemma {:induction false} AndBit(a: nat, b: nat, k: nat)
    ensures Bit(And(a, b), k) == (Bit(a, k) && Bit(b, k))
    decreases k
  {
    if a == 0 || b == 0 {
      BitZero(k);
    } else {
      var d := if a % 2 == 1 && b % 2 == 1 then 1 else 0;
      assert And(a, b) == 2 * And(a / 2, b / 2) + d;
      if k == 0 {
        assert And(a, b) % 2 == d;
      } else {
        assert And(a, b) / 2 == And(a / 2, b / 2);
        AndBit(a / 2, b / 2, k - 1);
      }
    }
  }

  /** Bit k of `a | b` is set iff it is set in either operand. */
  lemma {:induction false} OrBit(a: nat, b: nat, k: nat)
    ensures Bit(Or(a, b), k) == (Bit(a, k) || Bit(b, k))
    decreases k
  {
    if a == 0 {
      BitZero(k);
      assert Or(a, b) == b;
    } else if b == 0 {
      BitZero(k);
      assert Or(a, b) == a;
    } else {
      var r := Or(a, b);
      var d := if a % 2 == 1 || b % 2 == 1 then 1 else 0;
      assert r == 2 * Or(a / 2, b / 2) + d;
      if k == 0 {
        assert r % 2 == d;
      } else {
        assert r / 2 == Or(a / 2, b / 2);
        assert Bit(r, k) == Bit(Or(a / 2, b / 2), k - 1);
        OrBit(a / 2, b / 2, k - 1);
      }
    }
  }

  /** Bit k of `a ^ b` is set iff exactly one operand has it set. */
  lemma {:induction false} XorBit(a: nat, b: nat, k: nat)
    ensures Bit(Xor(a, b), k) == (Bit(a, k) != Bit(b, k))
    decreases k
  {
    if a == 0 || b == 0 {
      BitZero(k);
    } else {
      var d := if a % 2 != b % 2 then 1 else 0;
      assert Xor(a, b) == 2 * Xor(a / 2, b / 2) + d;
      if k == 0 {
        assert Xor(a, b) % 2 == d;
      } else {
        assert Xor(a, b) / 2 == Xor(a / 2, b / 2);
        XorBit(a / 2, b / 2, k - 1);
      }
    }
  }

  /** The bit-by-bit meaning of `&`, `|` and `^` at every position. */
  lemma BitwiseBits(a: nat, b: nat)
    ensures forall k: nat :: Bit(And(a, b), k) == (Bit(a, k) && Bit(b, k))
    ensures forall k: nat :: Bit(Or(a, b), k) == (Bit(a, k) || Bit(b, k))
    ensures forall k: nat :: Bit(Xor(a, b), k) == (Bit(a, k) != Bit(b, k))
  {
    forall k: nat
      ensures Bit(And(a, b), k) == (Bit(a, k) && Bit(b, k))
      ensures Bit(Or(a, b), k) == (Bit(a, k) || Bit(b, k))
      ensures Bit(Xor(a, b), k) == (Bit(a, k) != Bit(b, k))
    {
      AndBit(a, b, k);
      OrBit(a, b, k);
      XorBit(a, b, k);
    }
  }

  /** Left shift (`a << k`) without truncation. */
  function Shl(a: nat, k: nat): (r: nat)
  {
    if k == 0 then a else 2 * Shl(a, k - 1)
  }

  lemma ShlValues(a: nat)
    ensures Shl(a, 4) == 16 * a && Shl(a, 8) == 256 * a
  {
    assert Shl(a, 1) == 2 * a;
    assert Shl(a, 2) == 4 * a;
    assert Shl(a, 3) == 8 * a;
    assert Shl(a, 4) == 16 * a;
    assert Shl(a, 5) == 32 * a;
    assert Shl(a, 6) == 64 * a;
    assert Shl(a, 7) == 128 * a;
  }

  /** OR with a number whose bits all lie below bit k places it beside the
      shifted operand without overlap: `(a << k) | b == (a << k) + b`. */
  lemma {:induction false} OrDisjoint(a: nat, b: nat, k: nat)
    requires b < Pow2(k)
    ensures Or(Shl(a, k), b) == Shl(a, k) + b
  {
    if k > 0 {
      var m := Shl(a, k - 1);
      if m != 0 && b != 0 {
        OrDisjoint(a, b / 2, k - 1);
        assert Or(2 * m, b) == 2 * Or(m, b / 2) + b % 2;
      }
    }
  }

  lemma Pow2Values()
    ensures Pow2(4) == 16 && Pow2(8) == 256
  {
  }

  /** AND with a power of two whose bit lies above every bit of `a` is 0. */
  lemma {:induction false} AndBelowPow2(a: nat, j: nat)
    requires a < Pow2(j)
    ensures And(a, Pow2(j)) == 0
    decreases j
  {
    if j > 0 && a != 0 {
      assert Pow2(j) / 2 == Pow2(j - 1) && Pow2(j) % 2 == 0;
      AndBelowPow2(a / 2, j - 1);
    }
  }

  /** `(byte)(a & b)`. */
  function AndByte(a: byte, b: byte): (r: byte)
    ensures forall k: nat :: Bit(r, k) == (Bit(a, k) && Bit(b, k))
    ensures r <= a && r <= b
  {
    BitwiseBits(a, b);
    AndBounded(a, b);
    And(a, b)
  }

  /** `(byte)(a | b)`. */
  function OrByte(a: byte, b: byte): (r: byte)
    ensures forall k: nat :: Bit(r, k) == (Bit(a, k) || Bit(b, k))
    ensures a <= r && b <= r
  {
    BitwiseBits(a, b);
    OrBounds(a, b);
    Pow2Values();
    BitwiseBelowPow2(a, b, 8);
    Or(a, b)
  }

  /** `(byte)(a ^ b)`; XOR-ing the result with `b` again gives back `a`. */
  function XorByte(a: byte, b: byte): (r: byte)
    ensures forall k: nat :: Bit(r, k) == (Bit(a, k) != Bit(b, k))
    ensures Xor(r, b) == a
  {
    BitwiseBits(a, b);
    XorInvolutive(a, b);
    Pow2Values();
    BitwiseBelowPow2(a, b, 8);
    Xor(a, b)
  }

  /** `(byte)(a + b)`: the C# sum is an int, the cast keeps its low 8 bits. */
  function AddByte(a: byte, b: byte): (r: byte)
    ensures a + b <= 255 ==> r == a + b
    ensures a + b > 255 ==> r == a + b - 256
  {
    (a + b) % 0x100
  }

  /** `(byte)(a - b)`: two's-complement truncation of the int difference,
      which Dafny's Euclidean `%` reproduces for negative differences. */
  function SubByte(a: byte, b: byte): (r: byte)
    ensures a >= b ==> r == a - b
    ensures a < b ==> r == a - b + 256
  {
    (a - b) % 0x100
  }

  /** `ushort` addition or subtraction, wrapping modulo 65536. */
  function AddWord(a: word, d: int): (r: word)
    ensures 0 <= a + d < 0x1_0000 ==> r == a + d
    ensures a + d >= 0x1_0000 && a + d < 0x2_0000 ==> r == a + d - 0x1_0000
    ensures a + d < 0 && a + d >= -0x1_0000 ==> r == a + d + 0x1_0000
  {
    (a + d) % 0x1_0000
  }
}

=== FILE: control_properties.dfy ===
/** How a step moves PC: the fetch advance, jumps, skips, call and return,
    the key skips and the FX0A wait. */
module ControlFlow {
  import opened Bits
  import opened Decoder
  import opened Machine
  import opened Interpreter

  /** A PC whose two instruction bytes do not both lie in memory faults. */
  lemma FetchPastEnd(s: State, key: Key, rnd: byte)
    requires Valid(s) && s.pc + 1 >= MemSize
    ensures Step(s, key, rnd).Err?
    ensures Step(s, key, rnd).fault == IndexOutOfRange(if s.pc >= MemSize then s.pc else s.pc + 1)
  {
  }

  /** Every instruction that neither jumps, calls, returns, skips nor waits
      leaves PC at the address after it. */
  lemma StepAdvancesPc(s: State, key: Key, rnd: byte, c: nibble, x: nibble, nn: byte)
    requires Valid(s) && ImmAt(s, c, x, nn)
    requires c in {0x0, 0x6, 0x7, 0x8, 0xA, 0xC, 0xD, 0xF}
    requires c == 0x0 ==> !(x == 0 && nn == 0xEE)
    requires c == 0xF ==> !(nn == 0x0A && key.NoKey?)
    ensures Step(s, key, rnd).Ok? ==> Step(s, key, rnd).value.pc == s.pc + 2
    ensures c != 0xD && !(c == 0xF && nn in {0x33, 0x55, 0x65}) ==> Step(s, key, rnd).Ok?
  {
    StepAt(s, key, rnd, c, x, nn);
  }

  /** 0XNN other than 00E0 and 00EE matches neither `if` of category 0:
      the step only moves PC past it. */
  lemma SystemNoOp(s: State, key: Key, rnd: byte, x: nibble, nn: byte)
    requires Valid(s) && ImmAt(s, 0x0, x, nn) && !(x == 0 && (nn == 0xE0 || nn == 0xEE))
    ensures Step(s, key, rnd) == Ok(s.(pc := s.pc + 2))
  {
    StepAt(s, key, rnd, 0x0, x, nn);
  }

  /** 8XYN with N none of 0..7 and E takes the `default` of category 8: the
      step only moves PC past it. */
  lemma AluNoOp(s: State, key: Key, rnd: byte, x: nibble, y: nibble, n: nibble)
    requires Valid(s) && WordAt(s, 0x8, x, y, n) && (8 <= n <= 0xD || n == 0xF)
    ensures Step(s, key, rnd) == Ok(s.(pc := s.pc + 2))
  {
    StepWord(s, key, rnd, 0x8, x, y, n);
  }

  /** EXNN other than EX9E and EXA1 matches neither `if` of category E: the
      step only moves PC past it. */
  lemma KeyNoOp(s: State, key: Key, rnd: byte, x: nibble, nn: byte)
    requires Valid(s) && ImmAt(s, 0xE, x, nn) && nn != 0x9E && nn != 0xA1
    ensures Step(s, key, rnd) == Ok(s.(pc := s.pc + 2))
  {
    StepAt(s, key, rnd, 0xE, x, nn);
  }

  /** FXNN whose low byte is none of the nine handled values takes the
      `default` of category F: the step only moves PC past it. */
  lemma MiscNoOp(s: State, key: Key, rnd: byte, x: nibble, nn: byte)
    requires Valid(s) && ImmAt(s, 0xF, x, nn)
    requires nn !in {0x07, 0x0A, 0x15, 0x18, 0x1E, 0x29, 0x33, 0x55, 0x65}
    ensures Step(s, key, rnd) == Ok(s.(pc := s.pc + 2))
  {
    StepAt(s, key, rnd, 0xF, x, nn);
  }

  /** The skip condition of 3XNN, 4XNN, 5XYN and 9XYN; the last two compare
      VX with VY whatever N is, as the source only dispatches on C. */
  predicate SkipCondition(s: State, c: nibble, x: nibble, nn: byte)
    requires Valid(s)
  {
    match c
    case 0x3 => s.v[x] == nn
    case 0x4 => s.v[x] != nn
    case 0x5 => s.v[x] == s.v[nn / 16]
    case 0x9 => s.v[x] != s.v[nn / 16]
    case _ => false
  }

  /** 3XNN, 4XNN, 5XY0 and 9XY0 end with PC four bytes on when their
      condition holds and two bytes on otherwise, and change nothing else. */
  lemma ConditionalSkip(s: State, key: Key, rnd: byte, c: nibble, x: nibble, nn: byte)
    requires Valid(s) && ImmAt(s, c, x, nn) && c in {0x3, 0x4, 0x5, 0x9}
    ensures Step(s, key, rnd).Ok?
    ensures Step(s, key, rnd).value.pc == s.pc + 4 <==> SkipCondition(s, c, x, nn)
    ensures Step(s, key, rnd).value.pc == s.pc + 2 <==> !SkipCondition(s, c, x, nn)
    ensures Step(s, key, rnd).value == s.(pc := Step(s, key, rnd).value.pc)
  {
    StepAt(s, key, rnd, c, x, nn);
  }

  /** 1NNN jumps to NNN and changes nothing else. */
  lemma Jump(s: State, key: Key, rnd: byte, x: nibble, nn: byte)
    requires Valid(s) && ImmAt(s, 0x1, x, nn)
    ensures Step(s, key, rnd) == Ok(s.(pc := 256 * x + nn))
  {
    StepAt(s, key, rnd, 0x1, x, nn);
  }

  /** BNNN jumps to NNN + V0, which at most 0x10FE never needs the `ushort`
      wrap, and changes nothing else. */
  lemma JumpOffset(s: State, key: Key, rnd: byte, x: nibble, nn: byte)
    requires Valid(s) && ImmAt(s, 0xB, x, nn)
    ensures Step(s, key, rnd) == Ok(s.(pc := 256 * x + nn + s.v[0]))
    ensures Step(s, key, rnd).value.pc <= 0x10FE
  {
    StepAt(s, key, rnd, 0xB, x, nn);
  }

  /** 2NNN pushes the address after the call and jumps to NNN; a 00EE there
      pops it again, restoring both the stack and the return PC. */
  lemma CallThenReturn(s: State, key: Key, r1: byte, r2: byte, x: nibble, nn: byte)
    requires Valid(s) && ImmAt(s, 0x2, x, nn)
    requires 256 * x + nn + 1 < MemSize && s.mem[256 * x + nn] == 0x00 && s.mem[256 * x + nn + 1] == 0xEE
    ensures Step(s, key, r1) == Ok(s.(stack := s.stack + [s.pc + 2], pc := 256 * x + nn))
    ensures Step(Step(s, key, r1).value, key, r2) == Ok(s.(pc := s.pc + 2))
  {
    StepAt(s, key, r1, 0x2, x, nn);
    var t := Step(s, key, r1).value;
    assert ImmAt(t, 0x0, 0x0, 0xEE);
    StepAt(t, key, r2, 0x0, 0x0, 0xEE);
    assert (s.stack + [s.pc + 2])[..|s.stack|] == s.stack;
  }

  /** 00EE pops the top of the stack into PC, and faults on an empty stack. */
  lemma Return(s: State, key: Key, rnd: byte)
    requires Valid(s) && ImmAt(s, 0x0, 0x0, 0xEE)
    ensures |s.stack| == 0 ==> Step(s, key, rnd) == Err(StackEmpty)
    ensures |s.stack| > 0 ==>
      Step(s, key, rnd) == Ok(s.(pc := s.stack[|s.stack| - 1], stack := s.stack[..|s.stack| - 1]))
  {
    StepAt(s, key, rnd, 0x0, 0x0, 0xEE);
  }

  /** EX9E skips when the pressed key's code equals VX; EXA1 skips otherwise,
      including when no key is pressed. */
  lemma KeySkips(s: State, key: Key, rnd: byte, x: nibble, nn: byte)
    requires Valid(s) && ImmAt(s, 0xE, x, nn) && (nn == 0x9E || nn == 0xA1)
    ensures Step(s, key, rnd).Ok?
    ensures var matches := key.Pressed? && key.code as int == s.v[x];
      var skips := if nn == 0x9E then matches else !matches;
      Step(s, key, rnd).value == s.(pc := if skips then s.pc + 4 else s.pc + 2)
    ensures key.NoKey? ==> (Step(s, key, rnd).value.pc == s.pc + 4 <==> nn == 0xA1)
  {
    StepAt(s, key, rnd, 0xE, x, nn);
  }

  /** FX0A with no key pressed rewinds PC onto itself: the step changes
      nothing at all, so the instruction runs again. */
  lemma WaitForKeyBlocks(s: State, rnd: byte, x: nibble)
    requires Valid(s) && ImmAt(s, 0xF, x, 0x0A)
    ensures Step(s, NoKey, rnd) == Ok(s)
  {
    StepAt(s, NoKey, rnd, 0xF, x, 0x0A);
  }

  /** FX0A with a key pressed proceeds to the next instruction, and, unlike
      the reference behaviour, does not store the key in VX. */
  lemma WaitForKeyProceeds(s: State, rnd: byte, x: nibble, code: char)
    requires Valid(s) && ImmAt(s, 0xF, x, 0x0A)
    ensures Step(s, Pressed(code), rnd) == Ok(s.(pc := s.pc + 2))
  {
    StepAt(s, Pressed(code), rnd, 0xF, x, 0x0A);
  }
}

=== FILE: decoder.dfy ===
/** Splitting a fetched instruction word into its fixed bit fields. */
module Decoder {
  import opened Bits

  /** The fields every opcode handler reads: category C, register operands
      X and Y, the 4-bit immediate N, the low byte NN and the 12-bit address
      NNN. */
  datatype Instr = Instr(c: nibble, x: nibble, y: nibble, n: nibble, nn: byte, nnn: addr)

  /** A 12-bit address. */
  type addr = a: nat | a < 0x1000

  /** Decoding of the two bytes at PC, PC + 1, computed with the shifts and
      masks of the source.  The fields reassemble the original bytes, and
      NNN is the low twelve bits of the word. */
  function Decode(msb: byte, lsb: byte): (ins: Instr)
    ensures msb == 16 * ins.c + ins.x
    ensures lsb == 16 * ins.y + ins.n
    ensures ins.nn == lsb
    ensures ins.nnn == 256 * ins.x + lsb < 0x1000
  {
    SplitByte(msb);
    SplitByte(lsb);
    var c := And(msb / 16, 0xF);   // msb >> 4 & 0xF
    var x := And(msb, 0xF);        // msb & 0xF
    var y := And(lsb / 16, 0xF);   // lsb >> 4 & 0xF
    var n := And(lsb, 0xF);        // lsb & 0xF
    // (X << 8) | (Y << 4) | N
    var nnn := Or(Or(Shl(x, 8), Shl(y, 4)), n);
    NnnFields(x, y, n);
    Instr(c, x, y, n, lsb, nnn)
  }

  /** The instruction word with the given four nibbles. */
  function Encode(c: nibble, x: nibble, y: nibble, n: nibble): (bytes: (byte, byte))
  {
    (16 * c + x, 16 * y + n)
  }

  /** Decoding an encoded word gives back its four nibbles. */
  lemma DecodeEncode(c: nibble, x: nibble, y: nibble, n: nibble)
    ensures Decode(Encode(c, x, y, n).0, Encode(c, x, y, n).1)
         == Instr(c, x, y, n, 16 * y + n, 256 * x + 16 * y + n)
  {
    var ins := Decode(16 * c + x, 16 * y + n);
    Unique16(c, x, ins.c, ins.x);
    Unique16(y, n, ins.y, ins.n);
  }

  /** Decoding the word `c x nn` splits NN into its nibbles. */
  lemma DecodeImm(c: nibble, x: nibble, nn: byte)
    ensures Decode(16 * c + x, nn) == Instr(c, x, nn / 16, nn % 16, nn, 256 * x + nn)
  {
    var ins := Decode(16 * c + x, nn);
    Unique16(c, x, ins.c, ins.x);
    Unique16(nn / 16, nn % 16, ins.y, ins.n);
  }

  /** Re-encoding a decoded word gives back the fetched bytes. */
  lemma EncodeDecode(msb: byte, lsb: byte)
    ensures Encode(Decode(msb, lsb).c, Decode(msb, lsb).x, Decode(msb, lsb).y, Decode(msb, lsb).n) == (msb, lsb)
  {
  }

  /** NNN as the source phrases it: `((msb & 0xF) << 8) | lsb`. */
  lemma NnnIsLowTwelveBits(msb: byte, lsb: byte)
    ensures Decode(msb, lsb).nnn == Or(Shl(And(msb, 0xF), 8), lsb)
  {
    LowNibble(msb);
    ShlValues(And(msb, 0xF));
    Pow2Values();
    OrDisjoint(And(msb, 0xF), lsb, 8);
  }

  /** The three shifted fields of NNN do not overlap, so OR-ing them adds. */
  lemma NnnFields(x: nibble, y: nibble, n: nibble)
    ensures Or(Or(Shl(x, 8), Shl(y, 4)), n) == 256 * x + 16 * y + n
  {
    Pow2Values();
    ShlValues(x);
    ShlValues(y);
    ShlValues(16 * x + y);
    OrDisjoint(x, 16 * y, 8);
    OrDisjoint(16 * x + y, n, 4);
  }

  /** Both nibbles of a byte, as the masks of the source extract them. */
  lemma SplitByte(b: byte)
    ensures And(b / 16, 0xF) == b / 16 < 16
    ensures And(b, 0xF) == b % 16
    ensures b == 16 * (b / 16) + b % 16
  {
    LowNibble(b / 16);
    LowNibble(b);
  }

  lemma Unique16(hi: nibble, lo: nibble, hi': nibble, lo': nibble)
    requires 16 * hi + lo == 16 * hi' + lo'
    ensures hi == hi' && lo == lo'
  {
  }
}

=== FILE: display.dfy ===
/** The 64 x 32 monochrome framebuffer.

  The source keeps it in a process-wide static two-dimensional array
  `Display.Pixels[x, y]`; here it is a value held in the interpreter state,
  indexed the same way: column first, then row.
 */
module Display {

  const Width: nat := 64
  const Height: nat := 32

  type Framebuffer = seq<seq<bool>>

  /** 64 columns of 32 pixels each. */
  ghost predicate WellFormed(fb: Framebuffer)
  {
    |fb| == Width && forall x :: 0 <= x < |fb| ==> |fb[x]| == Height
  }

  /** A freshly allocated `bool[64, 32]`: every pixel off. */
  function Blank(): (fb: Framebuffer)
    ensures WellFormed(fb)
    ensures forall x, y :: 0 <= x < Width && 0 <= y < Height ==> !fb[x][y]
  {
    seq(Width, _ => seq(Height, _ => false))
  }

  /** `Display.SetPixel(x, y, on)`: one pixel takes the new value, no other
      pixel changes. */
  function SetPixel(fb: Framebuffer, x: nat, y: nat, on: bool): (fb': Framebuffer)
    requires WellFormed(fb) && x < Width && y < Height
    ensures WellFormed(fb')
    ensures fb'[x][y] == on
    ensures forall x', y' :: 0 <= x' < Width && 0 <= y' < Height && (x' != x || y' != y) ==>
              fb'[x'][y'] == fb[x'][y']
  {
    fb[x := fb[x][y := on]]
  }

  /** Two framebuffers that agree on every pixel are the same framebuffer. */
  lemma PixelsDetermine(a: Framebuffer, b: Framebuffer)
    requires WellFormed(a) && WellFormed(b)
    requires forall x, y :: 0 <= x < Width && 0 <= y < Height ==> a[x][y] == b[x][y]
    ensures a == b
  {
    forall x | 0 <= x < Width
      ensures a[x] == b[x]
    {
      assert forall y :: 0 <= y < Height ==> a[x][y] == b[x][y];
    }
  }
}

=== FILE: draw.dfy ===
/** The sprite drawing loops of DXYN.

  A sprite is N bytes read from memory at I, one byte per row, most
  significant bit leftmost.  Each set bit toggles one pixel; a pixel that was
  on and is toggled off is a collision.  Drawing starts at (VX mod 64,
  VY mod 32) and is clipped, not wrapped, at the right and bottom edges.
 */
module Draw {
  import opened Bits
  import opened Display
  import opened Machine

  /** `((row >> 7 - col) & 1) == 1`: column 0 of a sprite row is its most
      significant bit. */
  predicate SpriteBit(row: byte, col: nat)
    requires col < 8
  {
    Bit(row, 7 - col)
  }

  /** Screen pixel (x, y) is covered by a set bit of the sprite of `n` rows
      stored at `base`, drawn with its top-left corner at (xs, ys). */
  predicate Lit(mem: seq<byte>, base: nat, xs: nat, ys: nat, n: nat, x: nat, y: nat)
  {
    && xs <= x < xs + 8
    && ys <= y < ys + n
    && base + (y - ys) < |mem|
    && SpriteBit(mem[base + (y - ys)], x - xs)
  }

  /** Number of sprite rows the loop visits: it stops after row 31. */
  function RowCount(ys: nat, n: nat): (k: nat)
    requires ys < Height
    ensures k <= n && ys + k <= Height
    ensures k == n || ys + k == Height
  {
    if n <= Height - ys then n else Height - ys
  }

  /** The inner loop over the eight columns of one sprite row, from column
      `xd` on; `hit` records whether a collision happened so far.  The loop
      ends after column 63. */
  function DrawColumns(fb: Framebuffer, xs: nat, y: nat, row: byte, xd: nat, hit: bool): (r: (Framebuffer, bool))
    requires WellFormed(fb) && xd <= 8 && xs + xd < Width && y < Height
    ensures WellFormed(r.0)
    decreases 8 - xd
  {
    if xd == 8 then (fb, hit)
    else
      var x := xs + xd;
      var on := fb[x][y];
      var fb1 := if SpriteBit(row, xd) then SetPixel(fb, x, y, !on) else fb;
      var hit1 := hit || (SpriteBit(row, xd) && on);
      if x == Width - 1 then (fb1, hit1)
      else DrawColumns(fb1, xs, y, row, xd + 1, hit1)
  }

  /** The outer loop over the sprite rows, from row `yd` on.  Each row first
      reads its byte at `base + yd`, which throws when that is past the end
      of memory; the loop ends after row 31. */
  function DrawRows(fb: Framebuffer, mem: seq<byte>, base: nat, xs: nat, ys: nat, n: nat, yd: nat, hit: bool)
    : (r: Result<(Framebuffer, bool)>)
    requires WellFormed(fb) && |mem| == MemSize && xs < Width && ys + yd < Height
    ensures r.Ok? ==> WellFormed(r.value.0)
    decreases n - yd
  {
    if yd >= n then Ok((fb, hit))
    else if base + yd >= MemSize then Err(IndexOutOfRange(base + yd))
    else
      var c := DrawColumns(fb, xs, ys + yd, mem[base + yd], 0, hit);
      if ys + yd == Height - 1 then Ok(c)
      else DrawRows(c.0, mem, base, xs, ys, n, yd + 1, c.1)
  }

  /** Column x of the row drawn from column `xd` on carries a set bit. */
  predicate ColumnLit(xs: nat, xd: nat, row: byte, x: nat)
  {
    xs + xd <= x < xs + 8 && SpriteBit(row, x - xs)
  }

  /** The column loop toggles pixel (x', y') exactly when it lies on row
      `y`, from column xs + xd up to the edge, under a set sprite bit. */
  lemma {:induction false} DrawColumnsPixel(fb: Framebuffer, xs: nat, y: nat, row: byte, xd: nat, hit: bool,
                                            x': nat, y': nat)
    requires WellFormed(fb) && xd <= 8 && xs + xd < Width && y < Height && x' < Width && y' < Height
    ensures DrawColumns(fb, xs, y, row, xd, hit).0[x'][y'] == (fb[x'][y'] != (y' == y && ColumnLit(xs, xd, row, x')))
    decreases 8 - xd
  {
    if xd < 8 {
      var x := xs + xd;
      var on := fb[x][y];
      var fb1 := if SpriteBit(row, xd) then SetPixel(fb, x, y, !on) else fb;
      var hit1 := hit || (SpriteBit(row, xd) && on);
      assert fb1[x'][y'] == (fb[x'][y'] != (x' == x && y' == y && SpriteBit(row, xd)));
      if x != Width - 1 {
        DrawColumnsPixel(fb1, xs, y, row, xd + 1, hit1, x', y');
      }
    }
  }

  /** The column loop toggles exactly the pixels of row `y`, from column
      xs + xd up to the edge, whose sprite bit is set. */
  lemma DrawColumnsPixels(fb: Framebuffer, xs: nat, y: nat, row: byte, xd: nat, hit: bool)
    requires WellFormed(fb) && xd <= 8 && xs + xd < Width && y < Height
    ensures forall x', y' :: 0 <= x' < Width && 0 <= y' < Height ==>
              DrawColumns(fb, xs, y, row, xd, hit).0[x'][y'] == (fb[x'][y'] != (y' == y && ColumnLit(xs, xd, row, x')))
  {
    forall x', y' | 0 <= x' < Width && 0 <= y' < Height
      ensures DrawColumns(fb, xs, y, row, xd, hit).0[x'][y'] == (fb[x'][y'] != (y' == y && ColumnLit(xs, xd, row, x')))
    {
      DrawColumnsPixel(fb, xs, y, row, xd, hit, x', y');
    }
  }

  /** The column loop reports a collision exactly when one of the pixels it
      toggles was on before. */
  lemma {:induction false} DrawColumnsHit(fb: Framebuffer, xs: nat, y: nat, row: byte, xd: nat, hit: bool)
    requires WellFormed(fb) && xd <= 8 && xs + xd < Width && y < Height
    ensures DrawColumns(fb, xs, y, row, xd, hit).1
        <==> hit || exists x' :: 0 <= x' < Width && ColumnLit(xs, xd, row, x') && fb[x'][y]
    decreases 8 - xd
  {
    if xd < 8 {
      var x := xs + xd;
      var on := fb[x][y];
      var fb1 := if SpriteBit(row, xd) then SetPixel(fb, x, y, !on) else fb;
      var hit1 := hit || (SpriteBit(row, xd) && on);
      var r := DrawColumns(fb, xs, y, row, xd, hit);
      if x != Width - 1 {
        DrawColumnsHit(fb1, xs, y, row, xd + 1, hit1);
        assert r == DrawColumns(fb1, xs, y, row, xd + 1, hit1);
        if r.1 && !hit1 {
          var x' :| 0 <= x' < Width && ColumnLit(xs, xd + 1, row, x') && fb1[x'][y];
          assert fb[x'][y] && ColumnLit(xs, xd, row, x');
        }
        if !hit1 && exists x' :: 0 <= x' < Width && ColumnLit(xs, xd, row, x') && fb[x'][y] {
          var x' :| 0 <= x' < Width && ColumnLit(xs, xd, row, x') && fb[x'][y];
          assert x' != x;
          assert fb1[x'][y] && ColumnLit(xs, xd + 1, row, x');
        }
      } else {
        if !hit1 && exists x' :: 0 <= x' < Width && ColumnLit(xs, xd, row, x') && fb[x'][y] {
          var x' :| 0 <= x' < Width && ColumnLit(xs, xd, row, x') && fb[x'][y];
          assert x' == x;
        }
      }
    }
  }

  /** One iteration of the row loop. */
  lemma DrawRowsUnfold(fb: Framebuffer, mem: seq<byte>, base: nat, xs: nat, ys: nat, n: nat, yd: nat, hit: bool)
    requires WellFormed(fb) && |mem| == MemSize && xs < Width && ys + yd < Height
    requires yd < n && base + yd < MemSize
    ensures var c := DrawColumns(fb, xs, ys + yd, mem[base + yd], 0, hit);
      DrawRows(fb, mem, base, xs, ys, n, yd, hit)
      == if ys + yd == Height - 1 then Ok(c) else DrawRows(c.0, mem, base, xs, ys, n, yd + 1, c.1)
  {
  }

  /** The row loop faults exactly when a row it visits lies past the end of
      memory. */
  lemma {:induction false} DrawRowsFaults(fb: Framebuffer, mem: seq<byte>, base: nat, xs: nat, ys: nat, n: nat, yd: nat, hit: bool)
    requires WellFormed(fb) && |mem| == MemSize && xs < Width && ys + yd < Height
    ensures DrawRows(fb, mem, base, xs, ys, n, yd, hit).Ok?
        <==> yd >= RowCount(ys, n) || base + RowCount(ys, n) <= MemSize
    decreases n - yd
  {
    if yd < n && base + yd < MemSize && ys + yd != Height - 1 {
      var c := DrawColumns(fb, xs, ys + yd, mem[base + yd], 0, hit);
      DrawRowsFaults(c.0, mem, base, xs, ys, n, yd + 1, c.1);
    }
  }

  /** On the row being drawn, the column loop's set bits are the sprite's
      lit pixels. */
  lemma RowLit(mem: seq<byte>, base: nat, xs: nat, ys: nat, n: nat, yd: nat, x': nat)
    requires yd < n && base + yd < |mem|
    ensures ColumnLit(xs, 0, mem[base + yd], x') == Lit(mem, base, xs, ys, n, x', ys + yd)
  {
  }

  /** Drawing row y = ys + yd toggles pixel (x', y') exactly when it is lit
      and on that row.  (The row is passed as `y` rather than as the sum,
      which keeps the solver from unfolding the column loop.) */
  lemma RowPixel(fb: Framebuffer, mem: seq<byte>, base: nat, xs: nat, ys: nat, n: nat, yd: nat, y: nat, hit: bool,
                 x': nat, y': nat)
    requires WellFormed(fb) && |mem| == MemSize && xs < Width && y == ys + yd && y < Height
    requires yd < n && base + yd < MemSize && x' < Width && y' < Height
    ensures DrawColumns(fb, xs, y, mem[base + yd], 0, hit).0[x'][y']
         == (fb[x'][y'] != (y' == y && Lit(mem, base, xs, ys, n, x', y')))
  {
    DrawColumnsPixel(fb, xs, y, mem[base + yd], 0, hit, x', y');
    if y' == y {
      RowLit(mem, base, xs, ys, n, yd, x');
    }
  }

  /** The row loop, when it completes, toggles pixel (x', y') exactly when
      it is lit in rows ys + yd onwards. */
  lemma {:induction false} DrawRowsPixel(fb: Framebuffer, mem: seq<byte>, base: nat, xs: nat, ys: nat, n: nat, yd: nat, hit: bool,
                                         x': nat, y': nat)
    requires WellFormed(fb) && |mem| == MemSize && xs < Width && ys + yd < Height
    requires DrawRows(fb, mem, base, xs, ys, n, yd, hit).Ok?
    requires x' < Width && y' < Height
    ensures DrawRows(fb, mem, base, xs, ys, n, yd, hit).value.0[x'][y']
         == (fb[x'][y'] != (ys + yd <= y' && Lit(mem, base, xs, ys, n, x', y')))
    decreases n - yd
  {
    if yd < n {
      var y := ys + yd;
      var row := mem[base + yd];
      var c := DrawColumns(fb, xs, y, row, 0, hit);
      DrawRowsUnfold(fb, mem, base, xs, ys, n, yd, hit);
      RowPixel(fb, mem, base, xs, ys, n, yd, y, hit, x', y');
      if y != Height - 1 {
        DrawRowsPixel(c.0, mem, base, xs, ys, n, yd + 1, c.1, x', y');
      }
    }
  }

  /** The row loop, when it completes, toggles exactly the lit pixels of
      rows ys + yd onwards. */
  lemma DrawRowsPixels(fb: Framebuffer, mem: seq<byte>, base: nat, xs: nat, ys: nat, n: nat, yd: nat, hit: bool)
    requires WellFormed(fb) && |mem| == MemSize && xs < Width && ys + yd < Height
    requires DrawRows(fb, mem, base, xs, ys, n, yd, hit).Ok?
    ensures forall x', y' :: 0 <= x' < Width && 0 <= y' < Height ==>
              DrawRows(fb, mem, base, xs, ys, n, yd, hit).value.0[x'][y']
              == (fb[x'][y'] != (ys + yd <= y' && Lit(mem, base, xs, ys, n, x', y')))
  {
    forall x', y' | 0 <= x' < Width && 0 <= y' < Height
      ensures DrawRows(fb, mem, base, xs, ys, n, yd, hit).value.0[x'][y']
              == (fb[x'][y'] != (ys + yd <= y' && Lit(mem, base, xs, ys, n, x', y')))
    {
      DrawRowsPixel(fb, mem, base, xs, ys, n, yd, hit, x', y');
    }
  }

  /** Some pixel lit in rows from `y0` on was on before the draw. */
  ghost predicate Collides(fb: Framebuffer, mem: seq<byte>, base: nat, xs: nat, ys: nat, n: nat, y0: nat)
    requires WellFormed(fb)
  {
    exists x', y' :: 0 <= x' < Width && y0 <= y' < Height && Lit(mem, base, xs, ys, n, x', y') && fb[x'][y']
  }

  /** A collision from row ys + yd on is one in that row or one further
      down. */
  lemma CollidesSplit(fb: Framebuffer, mem: seq<byte>, base: nat, xs: nat, ys: nat, n: nat, yd: nat)
    requires WellFormed(fb) && ys + yd < Height && yd < n && base + yd < |mem|
    ensures Collides(fb, mem, base, xs, ys, n, ys + yd)
        <==> (exists x' :: 0 <= x' < Width && ColumnLit(xs, 0, mem[base + yd], x') && fb[x'][ys + yd])
             || Collides(fb, mem, base, xs, ys, n, ys + yd + 1)
  {
    var y := ys + yd;
    if Collides(fb, mem, base, xs, ys, n, y) {
      var x', y' :| 0 <= x' < Width && y <= y' < Height && Lit(mem, base, xs, ys, n, x', y') && fb[x'][y'];
      if y' == y {
        RowLit(mem, base, xs, ys, n, yd, x');
      }
    }
    if exists x' :: 0 <= x' < Width && ColumnLit(xs, 0, mem[base + yd], x') && fb[x'][y] {
      var x' :| 0 <= x' < Width && ColumnLit(xs, 0, mem[base + yd], x') && fb[x'][y];
      RowLit(mem, base, xs, ys, n, yd, x');
    }
  }

  /** Collisions from row y0 on depend only on the pixels of those rows. */
  lemma CollidesAgree(fb: Framebuffer, fb': Framebuffer, mem: seq<byte>, base: nat, xs: nat, ys: nat, n: nat, y0: nat)
    requires WellFormed(fb) && WellFormed(fb')
    requires forall x', y' :: 0 <= x' < Width && y0 <= y' < Height ==> fb[x'][y'] == fb'[x'][y']
    ensures Collides(fb, mem, base, xs, ys, n, y0) == Collides(fb', mem, base, xs, ys, n, y0)
  {
    if Collides(fb, mem, base, xs, ys, n, y0) {
      var x', y' :| 0 <= x' < Width && y0 <= y' < Height && Lit(mem, base, xs, ys, n, x', y') && fb[x'][y'];
      assert fb'[x'][y'];
    }
    if Collides(fb', mem, base, xs, ys, n, y0) {
      var x', y' :| 0 <= x' < Width && y0 <= y' < Height && Lit(mem, base, xs, ys, n, x', y') && fb'[x'][y'];
      assert fb[x'][y'];
    }
  }

  /** The row loop, when it completes, reports a collision exactly when one
      of the lit pixels of rows ys + yd onwards was on before. */
  lemma {:induction false} DrawRowsHit(fb: Framebuffer, mem: seq<byte>, base: nat, xs: nat, ys: nat, n: nat, yd: nat, hit: bool)
    requires WellFormed(fb) && |mem| == MemSize && xs < Width && ys + yd < Height
    requires DrawRows(fb, mem, base, xs, ys, n, yd, hit).Ok?
    ensures DrawRows(fb, mem, base, xs, ys, n, yd, hit).value.1 <==> hit || Collides(fb, mem, base, xs, ys, n, ys + yd)
    decreases n - yd
  {
    var y := ys + yd;
    if yd < n {
      var row := mem[base + yd];
      var c := DrawColumns(fb, xs, y, row, 0, hit);
      DrawRowsUnfold(fb, mem, base, xs, ys, n, yd, hit);
      DrawColumnsHit(fb, xs, y, row, 0, hit);
      CollidesSplit(fb, mem, base, xs, ys, n, yd);
      if y != Height - 1 {
        DrawRowsHit(c.0, mem, base, xs, ys, n, yd + 1, c.1);
        assert Collides(c.0, mem, base, xs, ys, n, y + 1) == Collides(fb, mem, base, xs, ys, n, y + 1) by {
          DrawColumnsPixels(fb, xs, y, row, 0, hit);
          CollidesAgree(c.0, fb, mem, base, xs, ys, n, y + 1);
        }
      }
    }
  }
}

=== FILE: draw_properties.dfy ===
/** What 00E0 and DXYN do to the framebuffer and to VF. */
module DrawProperties {
  import opened Bits
  import opened Decoder
  import opened Machine
  import opened Interpreter
  import Display
  import opened Draw

  /** 00E0 turns every pixel off and changes nothing else. */
  lemma ClearScreen(s: State, key: Key, rnd: byte)
    requires Valid(s) && ImmAt(s, 0x0, 0x0, 0xE0)
    ensures Step(s, key, rnd) == Ok(s.(pc := s.pc + 2, fb := Display.Blank()))
    ensures forall x, y :: 0 <= x < Display.Width && 0 <= y < Display.Height ==>
              !Step(s, key, rnd).value.fb[x][y]
  {
    StepAt(s, key, rnd, 0x0, 0x0, 0xE0);
  }

  /** A step on DXYN draws the sprite with PC already advanced. */
  lemma StepDraw(s: State, key: Key, rnd: byte, x: nibble, y: nibble, n: nibble)
    requires Valid(s) && WordAt(s, 0xD, x, y, n)
    ensures Step(s, key, rnd) == DrawSprite(s.(pc := s.pc + 2), x, y, n)
  {
    StepWord(s, key, rnd, 0xD, x, y, n);
  }

  /** DXYN faults exactly when one of the rows it visits lies past the end
      of memory: it visits min(N, 32 - VY mod 32) rows starting at I. */
  lemma DrawFaults(s: State, x: nibble, y: nibble, n: nibble)
    requires Valid(s)
    ensures var k := RowCount(s.v[y] % Display.Height, n);
      DrawSprite(s, x, y, n).Ok? <==> k == 0 || s.i + k <= MemSize
  {
    DrawRowsFaults(s.fb, s.mem, s.i, s.v[x] % Display.Width, s.v[y] % Display.Height, n, 0, false);
  }

  /** A completed DXYN flips exactly the on-screen pixels covered by set
      sprite bits (nothing wraps round the edges), sets VF to 1 exactly when
      one of them was on, and changes nothing else. */
  lemma DrawEffect(s: State, x: nibble, y: nibble, n: nibble)
    requires Valid(s) && DrawSprite(s, x, y, n).Ok?
    ensures var t := DrawSprite(s, x, y, n).value;
      var xs, ys := s.v[x] % Display.Width, s.v[y] % Display.Height;
      && (forall x', y' :: 0 <= x' < Display.Width && 0 <= y' < Display.Height ==>
            t.fb[x'][y'] == (s.fb[x'][y'] != Lit(s.mem, s.i, xs, ys, n, x', y')))
      && t.v[0xF] == (if Collides(s.fb, s.mem, s.i, xs, ys, n, ys) then 1 else 0)
      && t == s.(fb := t.fb, v := s.v[0xF := t.v[0xF]])
  {
    var xs, ys := s.v[x] % Display.Width, s.v[y] % Display.Height;
    DrawRowsPixels(s.fb, s.mem, s.i, xs, ys, n, 0, false);
    DrawRowsHit(s.fb, s.mem, s.i, xs, ys, n, 0, false);
  }

  /** On a blank screen nothing collides, so VF ends at 0. */
  lemma DrawOnBlank(s: State, x: nibble, y: nibble, n: nibble)
    requires Valid(s) && s.fb == Display.Blank() && DrawSprite(s, x, y, n).Ok?
    ensures DrawSprite(s, x, y, n).value.v[0xF] == 0
  {
    DrawEffect(s, x, y, n);
  }

  /** Drawing the same sprite at the same place twice, with X, Y != F so that
      the first VF write does not move it, gives back the framebuffer. */
  lemma DrawTwiceRestores(s: State, x: nibble, y: nibble, n: nibble)
    requires Valid(s) && x != 0xF && y != 0xF && DrawSprite(s, x, y, n).Ok?
    ensures var t := DrawSprite(s, x, y, n).value;
      DrawSprite(t, x, y, n).Ok? && DrawSprite(t, x, y, n).value.fb == s.fb
  {
    var t := DrawSprite(s, x, y, n).value;
    DrawEffect(s, x, y, n);
    DrawFaults(s, x, y, n);
    DrawFaults(t, x, y, n);
    var u := DrawSprite(t, x, y, n).value;
    DrawEffect(t, x, y, n);
    Display.PixelsDetermine(u.fb, s.fb);
  }

  /** Two identical DXYN instructions in a row, with X, Y != F, leave the
      screen as it was. */
  lemma StepDrawTwice(s: State, key: Key, r1: byte, r2: byte, x: nibble, y: nibble, n: nibble)
    requires Valid(s) && WordAt(s, 0xD, x, y, n) && x != 0xF && y != 0xF
    requires s.pc + 3 < MemSize && s.mem[s.pc + 2] == s.mem[s.pc] && s.mem[s.pc + 3] == s.mem[s.pc + 1]
    requires Step(s, key, r1).Ok?
    ensures var t := Step(s, key, r1).value;
      && Step(t, key, r2).Ok?
      && Step(t, key, r2).value.fb == s.fb
      && Step(t, key, r2).value.pc == s.pc + 4
  {
    var s1 := s.(pc := s.pc + 2);
    StepDraw(s, key, r1, x, y, n);
    DrawEffect(s1, x, y, n);
    var t := Step(s, key, r1).value;
    assert WordAt(t, 0xD, x, y, n);
    StepDraw(t, key, r2, x, y, n);
    DrawTwiceRestores(s1, x, y, n);
    DrawEffect(t.(pc := t.pc + 2), x, y, n);
  }
}

=== FILE: frame_properties.dfy ===
/** The 60 Hz frame: the saturating timer decrement, the instruction batch,
    and what a blocked FX0A does to a whole frame. */
module FrameProperties {
  import opened Bits
  import opened Decoder
  import opened Machine
  import opened Interpreter
  import AluProperties
  import ControlFlow

  /** The timer decrement touches nothing but the two timers, and never
      takes a timer below zero. */
  lemma TickTimersEffect(s: State)
    ensures var t := TickTimers(s);
      && t == s.(delay := t.delay, sound := t.sound)
      && (s.delay == 0 ==> t.delay == 0) && (s.delay > 0 ==> t.delay + 1 == s.delay)
      && (s.sound == 0 ==> t.sound == 0) && (s.sound > 0 ==> t.sound + 1 == s.sound)
  {
  }

  /** `k` frames' worth of timer decrements. */
  function Ticks(s: State, k: nat): (t: State)
    ensures t == s.(delay := t.delay, sound := t.sound)
    decreases k
  {
    if k == 0 then s else Ticks(TickTimers(s), k - 1)
  }

  /** After k decrements a timer that started at d reads max(d - k, 0): it
      counts down once per frame and then stays at zero. */
  lemma {:induction false} TimersAfterTicks(s: State, k: nat)
    ensures Ticks(s, k).delay == if s.delay >= k then s.delay - k else 0
    ensures Ticks(s, k).sound == if s.sound >= k then s.sound - k else 0
    decreases k
  {
    if k > 0 {
      TimersAfterTicks(TickTimers(s), k - 1);
    }
  }

  /** A batch over `a + b` runs `a` and then, unless it faulted, `b`. */
  lemma {:induction false} RunBatchAppend(s: State, key: Key, a: seq<byte>, b: seq<byte>)
    requires Valid(s)
    ensures RunBatch(s, key, a + b)
         == match RunBatch(s, key, a)
            case Err(f) => Err(f)
            case Ok(t) => RunBatch(t, key, b)
    decreases |a|
  {
    if |a| > 0 {
      assert (a + b)[0] == a[0];
      assert (a + b)[1..] == a[1..] + b;
      var first := Step(s, key, a[0]);
      if first.Ok? {
        RunBatchAppend(first.value, key, a[1..], b);
      }
    } else {
      assert a + b == b;
    }
  }

  /** While FX0A waits with no key pressed, a batch of any length leaves the
      state exactly as it was. */
  lemma {:induction false} BlockedBatch(s: State, rnds: seq<byte>, x: nibble)
    requires Valid(s) && ImmAt(s, 0xF, x, 0x0A)
    ensures RunBatch(s, NoKey, rnds) == Ok(s)
    decreases |rnds|
  {
    if |rnds| > 0 {
      ControlFlow.WaitForKeyBlocks(s, rnds[0], x);
      BlockedBatch(s, rnds[1..], x);
    }
  }

  /** A frame spent waiting for a key only counts the timers down. */
  lemma BlockedFrame(s: State, rnds: seq<byte>, x: nibble)
    requires Valid(s) && ImmAt(s, 0xF, x, 0x0A) && |rnds| == BatchSize
    ensures FrameTick(s, NoKey, rnds) == Ok(TickTimers(s))
  {
    var t := TickTimers(s);
    assert ImmAt(t, 0xF, x, 0x0A);
    BlockedBatch(t, rnds, x);
  }

  /** 700 instructions per second in 60 frames is 11 instructions a frame. */
  lemma BatchSizeValue()
    ensures BatchSize == 11 && BatchSize * 60 <= Ips < (BatchSize + 1) * 60
  {
  }

  /** A batch whose first step succeeds continues from that step's result. */
  lemma RunBatchOk(s: State, key: Key, rnds: seq<byte>, t: State)
    requires Valid(s) && |rnds| > 0 && Step(s, key, rnds[0]) == Ok(t)
    ensures RunBatch(s, key, rnds) == RunBatch(t, key, rnds[1..])
  {
  }

  /** The last instruction of the program below: `8014` with V0 = 10 and
      V1 = 5. */
  lemma AddProgramLast(s: State, r: seq<byte>)
    requires Valid(s) && |r| == 1 && WordAt(s, 0x8, 0x0, 0x1, 0x4) && s.v[0] == 10 && s.v[1] == 5
    ensures RunBatch(s, NoKey, r).Ok?
    ensures var t := RunBatch(s, NoKey, r).value;
      t.v[0] == 15 && t.v[1] == 5 && t.v[0xF] == s.v[0xF] && t.pc == s.pc + 2
  {
    AluProperties.AddWithCarry(s, NoKey, r[0], 0x0, 0x1);
    var t := Step(s, NoKey, r[0]).value;
    RunBatchOk(s, NoKey, r, t);
    assert RunBatch(t, NoKey, r[1..]) == Ok(t);
  }

  /** The last two instructions of the program below: `6105 8014` with
      V0 = 10. */
  lemma AddProgramTail(s: State, r: seq<byte>)
    requires Valid(s) && |r| == 2 && s.pc + 4 <= MemSize && s.v[0] == 10
    requires s.mem[s.pc..s.pc + 4] == [0x61, 0x05, 0x80, 0x14]
    ensures RunBatch(s, NoKey, r).Ok?
    ensures var t := RunBatch(s, NoKey, r).value;
      t.v[0] == 15 && t.v[1] == 5 && t.v[0xF] == s.v[0xF] && t.pc == s.pc + 4
  {
    var prog := s.mem[s.pc..s.pc + 4];
    assert s.mem[s.pc] == prog[0] && s.mem[s.pc + 1] == prog[1];
    AluProperties.LoadImmediate(s, NoKey, r[0], 0x1, 0x05);
    var t := Step(s, NoKey, r[0]).value;
    assert t.mem[t.pc] == prog[2] && t.mem[t.pc + 1] == prog[3];
    RunBatchOk(s, NoKey, r, t);
    AddProgramLast(t, r[1..]);
  }

  /** The program `600A 6105 8014` adds 5 to 10 in V0 without a carry,
      wherever it is placed. */
  lemma AddProgramAt(s: State, r: seq<byte>)
    requires Valid(s) && |r| == 3 && s.pc + 6 <= MemSize
    requires s.mem[s.pc..s.pc + 6] == [0x60, 0x0A, 0x61, 0x05, 0x80, 0x14]
    ensures RunBatch(s, NoKey, r).Ok?
    ensures var t := RunBatch(s, NoKey, r).value;
      t.v[0] == 15 && t.v[1] == 5 && t.v[0xF] == s.v[0xF] && t.pc == s.pc + 6
  {
    var prog := s.mem[s.pc..s.pc + 6];
    assert s.mem[s.pc] == prog[0] && s.mem[s.pc + 1] == prog[1];
    AluProperties.LoadImmediate(s, NoKey, r[0], 0x0, 0x0A);
    var t := Step(s, NoKey, r[0]).value;
    assert t.mem[t.pc..t.pc + 4] == prog[2..];
    RunBatchOk(s, NoKey, r, t);
    AddProgramTail(t, r[1..]);
  }

  /** Loaded into a fresh interpreter, the same program leaves 15 in V0 and
      VF at 0. */
  lemma AddProgram(r: seq<byte>)
    requires |r| == 3
    ensures var s := LoadRom(Init(), [0x60, 0x0A, 0x61, 0x05, 0x80, 0x14]);
      && RunBatch(s, NoKey, r).Ok?
      && RunBatch(s, NoKey, r).value.v[0] == 15
      && RunBatch(s, NoKey, r).value.v[0xF] == 0
      && RunBatch(s, NoKey, r).value.pc == ProgramStart + 6
  {
    var rom: seq<byte> := [0x60, 0x0A, 0x61, 0x05, 0x80, 0x14];
    var s := LoadRom(Init(), rom);
    assert s.mem[s.pc..s.pc + 6] == rom;
    AddProgramAt(s, r);
  }
}

=== FILE: interpreter.dfy ===
/** Fetch, decode and execute: one CHIP-8 instruction as a pure state
    transition, and the 60 Hz frame that runs a batch of them. */
module Interpreter {
  import opened Bits
  import opened Decoder
  import opened Machine
  import Display
  import Draw

  /** Instructions per second, and the batch run per 60 Hz frame (C# integer
      division: 700 / 60 = 11). */
  const Ips: nat := 700
  const BatchSize: nat := Ips / 60

  /** The two bytes at PC, decoded.  Reading `_memory[_pc]` or
      `_memory[_pc + 1]` past the end of memory throws. */
  function Fetch(s: State): (r: Result<Instr>)
    requires Valid(s)
    ensures r.Ok? <==> s.pc + 1 < MemSize
    ensures r.Ok? ==> r.value == Decode(s.mem[s.pc], s.mem[s.pc + 1])
  {
    if s.pc >= MemSize then Err(IndexOutOfRange(s.pc))
    else if s.pc + 1 >= MemSize then Err(IndexOutOfRange(s.pc + 1))
    else Ok(Decode(s.mem[s.pc], s.mem[s.pc + 1]))
  }

  /** One instruction: fetch, advance PC by 2 (as a `ushort`), execute.
      `key` is the key snapshot of the current frame and `rnd` the random
      byte CXNN consumes. */
  function Step(s: State, key: Key, rnd: byte): (r: Result<State>)
    requires Valid(s)
    ensures r.Ok? ==> Valid(r.value)
  {
    match Fetch(s)
    case Err(f) => Err(f)
    case Ok(ins) => Execute(s.(pc := AddWord(s.pc, 2)), ins, key, rnd)
  }

  /** `new Random().Next(bound)` driven by the random byte `rnd`: `rnd`
      reduced below `bound`, or 0 when `bound` is 0. */
  function RandomBelow(rnd: byte, bound: byte): (r: byte)
    ensures bound == 0 ==> r == 0
    ensures bound > 0 ==> r < bound
    decreases rnd
  {
    if bound == 0 then 0
    else if rnd < bound then rnd
    else RandomBelow(rnd - bound, bound)
  }

  /** Every value `Next(bound)` can return is produced by some random byte. */
  lemma RandomBelowCovers(bound: byte, k: nat)
    requires k < bound
    ensures RandomBelow(k, bound) == k
  {
  }

  /** Skips the next instruction when `cond` holds. */
  function SkipIf(s: State, cond: bool): (t: State)
  {
    if cond then s.(pc := AddWord(s.pc, 2)) else s
  }

  /** The lifted comparison `_keyPressed == _regV[X]` of a `char?` with a
      byte: false when no key is pressed, otherwise a comparison of the
      character code. */
  predicate KeyEquals(key: Key, b: byte)
  {
    key.Pressed? && key.code as int == b
  }

  /** The `switch (C)` of the source.  `s` already has PC advanced. */
  function Execute(s: State, ins: Instr, key: Key, rnd: byte): (r: Result<State>)
    requires Valid(s)
    ensures r.Ok? ==> Valid(r.value)
  {
    var x, y := ins.x, ins.y;
    match ins.c
    case 0x0 =>
      // msb == 0x00 is C == 0 and X == 0; lsb is NN
      if x == 0 && ins.nn == 0xE0 then Ok(s.(fb := Display.Blank()))
      else if x == 0 && ins.nn == 0xEE then
        if |s.stack| == 0 then Err(StackEmpty)
        else Ok(s.(pc := s.stack[|s.stack| - 1], stack := s.stack[..|s.stack| - 1]))
      else Ok(s)
    case 0x1 => Ok(s.(pc := ins.nnn))
    case 0x2 => Ok(s.(stack := s.stack + [s.pc], pc := ins.nnn))
    case 0x3 => Ok(SkipIf(s, s.v[x] == ins.nn))
    case 0x4 => Ok(SkipIf(s, s.v[x] != ins.nn))
    case 0x5 => Ok(SkipIf(s, s.v[x] == s.v[y]))
    case 0x6 => Ok(s.(v := s.v[x := ins.nn]))
    case 0x7 => Ok(s.(v := s.v[x := AddByte(s.v[x], ins.nn)]))
    case 0x8 => Ok(s.(v := Alu(s.v, x, y, ins.n)))
    case 0x9 => Ok(SkipIf(s, s.v[x] != s.v[y]))
    case 0xA => Ok(s.(i := ins.nnn))
    case 0xB => Ok(s.(pc := AddWord(ins.nnn, s.v[0])))
    case 0xC => Ok(s.(v := s.v[x := AndByte(RandomBelow(rnd, ins.nn), ins.nn)]))
    case 0xD => DrawSprite(s, x, y, ins.n)
    case 0xE =>
      if ins.nn == 0x9E then Ok(SkipIf(s, KeyEquals(key, s.v[x])))
      else if ins.nn == 0xA1 then Ok(SkipIf(s, !KeyEquals(key, s.v[x])))
      else Ok(s)
    case 0xF => Misc(s, x, ins.nn, key)
  }

  /** The `switch (N)` of category 8.  Where the source assigns VF before
      VX (8XY4, 8XY5, 8XY7, 8XY6, 8XYE), the second assignment reads the
      registers after the first, so an X or Y of F sees the new flag. */
  function Alu(v: seq<byte>, x: nibble, y: nibble, n: nibble): (r: seq<byte>)
    requires |v| == 16
    ensures |r| == 16
  {
    match n
    case 0x0 => v[x := v[y]]
    case 0x1 => v[x := OrByte(v[x], v[y])]
    case 0x2 => v[x := AndByte(v[x], v[y])]
    case 0x3 => v[x := XorByte(v[x], v[y])]
    case 0x4 =>
      // the flag is set on overflow but never cleared
      var v1 := if v[x] as int + v[y] > 255 then v[0xF := 1] else v;
      v1[x := AddByte(v1[x], v1[y])]
    case 0x5 =>
      // strict comparison: equal operands clear the flag
      var v1 := v[0xF := if v[x] > v[y] then 1 else 0];
      v1[x := SubByte(v1[x], v1[y])]
    case 0x7 =>
      var v1 := v[0xF := if v[y] > v[x] then 1 else 0];
      v1[x := SubByte(v1[y], v1[x])]
    case 0x6 =>
      // shifts VX in place; VF = VX & 1, VX = VX >> 1
      var v1 := v[0xF := AndByte(v[x], 1)];
      v1[x := v1[x] / 2]
    case 0xE =>
      // VF = (VX >> 7) & 1, VX = (byte)(VX << 1)
      var v1 := v[0xF := AndByte(v[x] / 128, 1)];
      v1[x := (2 * v1[x] as int) % 0x100]
    case _ => v
  }

  /** DXYN.  The start coordinates are read before VF is cleared; the source
      clears VF and sets it to 1 at every collision, which leaves it 1 exactly
      when some collision happened. */
  function DrawSprite(s: State, x: nibble, y: nibble, n: nibble): (r: Result<State>)
    requires Valid(s)
    ensures r.Ok? ==> Valid(r.value)
  {
    var xs := s.v[x] % Display.Width;
    var ys := s.v[y] % Display.Height;
    match Draw.DrawRows(s.fb, s.mem, s.i, xs, ys, n, 0, false)
    case Err(f) => Err(f)
    case Ok(res) => Ok(s.(fb := res.0, v := s.v[0xF := if res.1 then 1 else 0]))
  }

  /** The `switch (lsb)` of category F. */
  function Misc(s: State, x: nibble, nn: byte, key: Key): (r: Result<State>)
    requires Valid(s)
    ensures r.Ok? ==> Valid(r.value)
  {
    if nn == 0x07 then Ok(s.(v := s.v[x := s.delay]))
    else if nn == 0x15 then Ok(s.(delay := s.v[x]))
    else if nn == 0x18 then Ok(s.(sound := s.v[x]))
    else if nn == 0x1E then
      // I wraps as a ushort; VF is set, never cleared, when I leaves 12 bits
      var i := AddWord(s.i, s.v[x]);
      Ok(s.(i := i, v := if i >= 0x1000 then s.v[0xF := 1] else s.v))
    else if nn == 0x0A then
      // waits by re-executing itself; a pressed key is not stored in VX
      if key.NoKey? then Ok(s.(pc := AddWord(s.pc, -2))) else Ok(s)
    else if nn == 0x29 then Ok(s.(i := AndByte(s.v[x], 0xF) * 5 + FontBase))
    else if nn == 0x33 then Bcd(s, s.v[x])
    else if nn == 0x55 then
      if s.i + x >= MemSize then Err(IndexOutOfRange(FirstOutside(s.i)))
      else Ok(s.(mem := StoreRegs(s.mem, s.i, s.v, x + 1)))
    else if nn == 0x65 then
      if s.i + x >= MemSize then Err(IndexOutOfRange(FirstOutside(s.i)))
      else Ok(s.(v := LoadRegs(s.v, s.mem, s.i, x + 1)))
    else Ok(s)
  }

  /** The first address at or after `base` that lies past the end of
      memory. */
  function FirstOutside(base: nat): (a: nat)
    ensures a >= MemSize && a >= base
  {
    if base >= MemSize then base else MemSize
  }

  /** FX33 as written: the digits of n are written left-aligned, so a value
      below 100 puts its tens (or its only digit) at I, not at I + 1 or I + 2.
      Each digit is computed from the one just stored below it. */
  function Bcd(s: State, n: byte): (r: Result<State>)
    requires Valid(s)
    ensures r.Ok? ==> Valid(r.value)
  {
    if n / 100 >= 1 then
      if s.i + 2 >= MemSize then Err(IndexOutOfRange(s.i + 2))
      else
        var units := n % 10;
        var m1 := s.mem[s.i + 2 := units];
        var tens := (n - units) / 10 % 10;
        var m2 := m1[s.i + 1 := tens];
        var hundreds := (n - units) / 10 / 10;
        Ok(s.(mem := m2[s.i := hundreds]))
    else if n / 10 >= 1 then
      if s.i + 1 >= MemSize then Err(IndexOutOfRange(s.i + 1))
      else
        var units := n % 10;
        var m1 := s.mem[s.i + 1 := units];
        Ok(s.(mem := m1[s.i := (n - units) / 10]))
    else if s.i >= MemSize then Err(IndexOutOfRange(s.i))
    else Ok(s.(mem := s.mem[s.i := n]))
  }

  /** The FX55 loop `for (i = 0; i < count; i++) _memory[base + i] = _regV[i]`:
      exactly the `count` bytes from `base` on take the register values. */
  function StoreRegs(mem: seq<byte>, base: nat, v: seq<byte>, count: nat): (m: seq<byte>)
    requires count <= |v| && base + count <= |mem|
    ensures |m| == |mem|
    ensures forall a :: 0 <= a < |mem| ==> m[a] == if base <= a < base + count then v[a - base] else mem[a]
    decreases count
  {
    if count == 0 then mem
    else StoreRegs(mem, base, v, count - 1)[base + count - 1 := v[count - 1]]
  }

  /** The FX65 loop `for (i = 0; i < count; i++) _regV[i] = _memory[base + i]`:
      exactly the first `count` registers take the memory values. */
  function LoadRegs(v: seq<byte>, mem: seq<byte>, base: nat, count: nat): (r: seq<byte>)
    requires count <= |v| && base + count <= |mem|
    ensures |r| == |v|
    ensures forall j :: 0 <= j < |v| ==> r[j] == if j < count then mem[base + j] else v[j]
    decreases count
  {
    if count == 0 then v
    else LoadRegs(v, mem, base, count - 1)[count - 1 := mem[base + count - 1]]
  }

  /** The saturating timer decrement at the start of every frame. */
  function TickTimers(s: State): (t: State)
  {
    s.(delay := if s.delay > 0 then s.delay - 1 else 0,
       sound := if s.sound > 0 then s.sound - 1 else 0)
  }

  /** `ExecuteInstructionBatch`: one step per random byte, stopping at the
      first fault. */
  function RunBatch(s: State, key: Key, rnds: seq<byte>): (r: Result<State>)
    requires Valid(s)
    ensures r.Ok? ==> Valid(r.value)
    decreases |rnds|
  {
    if |rnds| == 0 then Ok(s)
    else
      match Step(s, key, rnds[0])
      case Err(f) => Err(f)
      case Ok(s1) => RunBatch(s1, key, rnds[1..])
  }

  /** One pass of the `LoadRomAndStart` loop: snapshot the key, decrement
      both timers, run a batch of `BatchSize` instructions. */
  function FrameTick(s: State, key: Key, rnds: seq<byte>): (r: Result<State>)
    requires Valid(s) && |rnds| == BatchSize
    ensures r.Ok? ==> Valid(r.value)
  {
    RunBatch(TickTimers(s), key, rnds)
  }

  /** The word at PC has category c, register operand x and low byte nn. */
  ghost predicate ImmAt(s: State, c: nibble, x: nibble, nn: byte)
    requires Valid(s)
  {
    s.pc + 1 < MemSize && s.mem[s.pc] == 16 * c + x && s.mem[s.pc + 1] == nn
  }

  /** The word at PC has the four nibbles c, x, y, n. */
  ghost predicate WordAt(s: State, c: nibble, x: nibble, y: nibble, n: nibble)
    requires Valid(s)
  {
    ImmAt(s, c, x, 16 * y + n)
  }

  /** A step whose fetch succeeds executes the fetched instruction with PC
      already advanced by 2. */
  lemma StepFetched(s: State, key: Key, rnd: byte, ins: Instr)
    requires Valid(s) && Fetch(s) == Ok(ins)
    ensures Step(s, key, rnd) == Execute(s.(pc := s.pc + 2), ins, key, rnd)
  {
    assert AddWord(s.pc, 2) == s.pc + 2;
  }

  /** A step on the word `c x nn` at PC executes exactly that instruction
      with PC already advanced by 2. */
  lemma StepAt(s: State, key: Key, rnd: byte, c: nibble, x: nibble, nn: byte)
    requires Valid(s) && ImmAt(s, c, x, nn)
    ensures var ins := Decode(16 * c + x, nn);
      && ins == Instr(c, x, nn / 16, nn % 16, nn, 256 * x + nn)
      && Step(s, key, rnd) == Execute(s.(pc := s.pc + 2), ins, key, rnd)
  {
    DecodeImm(c, x, nn);
    StepFetched(s, key, rnd, Instr(c, x, nn / 16, nn % 16, nn, 256 * x + nn));
  }

  /** A step on the word `c x y n` at PC executes exactly that instruction
      with PC already advanced by 2. */
  lemma StepWord(s: State, key: Key, rnd: byte, c: nibble, x: nibble, y: nibble, n: nibble)
    requires Valid(s) && WordAt(s, c, x, y, n)
    ensures Step(s, key, rnd) == Execute(s.(pc := s.pc + 2), Instr(c, x, y, n, 16 * y + n, 256 * x + 16 * y + n), key, rnd)
  {
    var ins := Instr(c, x, y, n, 16 * y + n, 256 * x + 16 * y + n);
    assert Fetch(s) == Ok(ins) by {
      DecodeEncode(c, x, y, n);
      assert Encode(c, x, y, n) == (s.mem[s.pc], s.mem[s.pc + 1]);
    }
    StepFetched(s, key, rnd, ins);
  }
}

=== FILE: machine.dfy ===
/** The interpreter state, its construction and the program load. */
module Machine {
  import opened Bits
  import Display

  const MemSize: nat := 4096
  const FontBase: nat := 0x50
  const ProgramStart: nat := 0x200
  /** The largest ROM that fits between 0x200 and the end of memory. */
  const MaxRomSize: nat := MemSize - ProgramStart

  /** The sixteen hexadecimal digit glyphs, five rows of four pixels each
      (the high nibble of every byte). */
  const FontTable: seq<byte> := [
    0xF0, 0x90, 0x90, 0x90, 0xF0, // 0
    0x20, 0x60, 0x20, 0x20, 0x70, // 1
    0xF0, 0x10, 0xF0, 0x80, 0xF0, // 2
    0xF0, 0x10, 0xF0, 0x10, 0xF0, // 3
    0x90, 0x90, 0xF0, 0x10, 0x10, // 4
    0xF0, 0x80, 0xF0, 0x10, 0xF0, // 5
    0xF0, 0x80, 0xF0, 0x90, 0xF0, // 6
    0xF0, 0x10, 0x20, 0x40, 0x40, // 7
    0xF0, 0x90, 0xF0, 0x90, 0xF0, // 8
    0xF0, 0x90, 0xF0, 0x10, 0xF0, // 9
    0xF0, 0x90, 0xF0, 0x90, 0x90, // A
    0xE0, 0x90, 0xE0, 0x90, 0xE0, // B
    0xF0, 0x80, 0x80, 0x80, 0xF0, // C
    0xE0, 0x90, 0x90, 0x90, 0xE0, // D
    0xF0, 0x80, 0xF0, 0x80, 0xF0, // E
    0xF0, 0x80, 0xF0, 0x80, 0x80  // F
  ]

  /** The currently pressed key as the host reports it: a `char?` that is
      null when no key is down.  The on-screen keypad sends the characters
      '\x0' to '\xF'. */
  datatype Key = NoKey | Pressed(code: char)

  /** Everything the interpreter owns.  `stack` lists return addresses from
      the bottom up, so its last element is the top; `fb` is the framebuffer
      the source keeps in the static `Display.Pixels`. */
  datatype State = State(
    mem: seq<byte>,
    v: seq<byte>,
    i: word,
    pc: word,
    stack: seq<word>,
    delay: byte,
    sound: byte,
    fb: Display.Framebuffer)

  /** 4096 bytes of memory, sixteen registers and a 64 x 32 framebuffer. */
  ghost predicate Valid(s: State)
  {
    |s.mem| == MemSize && |s.v| == 16 && Display.WellFormed(s.fb)
  }

  /** The exceptions the source can raise while executing: an array index
      past the end of memory, and `Pop` on an empty stack. */
  datatype Fault = IndexOutOfRange(index: int) | StackEmpty

  datatype Result<T> = Ok(value: T) | Err(fault: Fault)

  /** `Buffer.BlockCopy(src, 0, dst, at, src.Length)`: the bytes of `src`
      land at `at`, `at + 1`, ..., and nothing else in `dst` changes. */
  function BlockCopy(dst: seq<byte>, at: nat, src: seq<byte>): (r: seq<byte>)
    requires at + |src| <= |dst|
    ensures |r| == |dst|
    ensures forall k :: 0 <= k < |src| ==> r[at + k] == src[k]
    ensures forall a :: 0 <= a < |dst| && !(at <= a < at + |src|) ==> r[a] == dst[a]
  {
    dst[..at] + src + dst[at + |src|..]
  }

  /** The constructor: zeroed memory with the font at 0x50, zeroed
      registers, index, PC, timers and an empty stack, and the initial
      all-off framebuffer. */
  function Init(): (s: State)
    ensures Valid(s)
    ensures s.mem[FontBase..FontBase + |FontTable|] == FontTable
    ensures forall a :: 0 <= a < MemSize && !(FontBase <= a < FontBase + |FontTable|) ==> s.mem[a] == 0
    ensures forall r :: 0 <= r < 16 ==> s.v[r] == 0
    ensures s.i == 0 && s.pc == 0 && s.stack == [] && s.delay == 0 && s.sound == 0
    ensures s.fb == Display.Blank()
  {
    var mem := BlockCopy(seq(MemSize, _ => 0), FontBase, FontTable);
    assert mem[FontBase..FontBase + |FontTable|] == FontTable;
    State(mem, seq(16, _ => 0), 0, 0, [], 0, 0, Display.Blank())
  }

  /** The first half of `LoadRomAndStart`: the ROM is copied verbatim to
      0x200 and PC points at it.  `BlockCopy` throws for a ROM longer than
      3584 bytes, which callers must therefore not pass. */
  function LoadRom(s: State, rom: seq<byte>): (t: State)
    requires Valid(s) && |rom| <= MaxRomSize
    ensures Valid(t)
    ensures forall k :: 0 <= k < |rom| ==> t.mem[ProgramStart + k] == rom[k]
    ensures forall a :: 0 <= a < MemSize && !(ProgramStart <= a < ProgramStart + |rom|) ==> t.mem[a] == s.mem[a]
    ensures t.pc == ProgramStart
    ensures t == s.(mem := t.mem, pc := t.pc)
  {
    s.(mem := BlockCopy(s.mem, ProgramStart, rom), pc := ProgramStart)
  }

  /** Constructing an interpreter and loading a ROM into it leaves the font
      in place, since the font lies below 0x200. */
  lemma LoadKeepsFont(rom: seq<byte>)
    requires |rom| <= MaxRomSize
    ensures LoadRom(Init(), rom).mem[FontBase..FontBase + |FontTable|] == FontTable
  {
    var s := Init();
    var t := LoadRom(s, rom);
    forall k | 0 <= k < |FontTable|
      ensures t.mem[FontBase + k] == FontTable[k]
    {
      assert t.mem[FontBase + k] == s.mem[FontBase + k];
      assert s.mem[FontBase..FontBase + |FontTable|][k] == s.mem[FontBase + k];
    }
  }
}

=== FILE: memory_properties.dfy ===
/** What the index-register, timer and memory instructions ANNN and FXNN do:
    the font lookup, the decimal conversion and the register block moves. */
module MemoryProperties {
  import opened Bits
  import opened Decoder
  import opened Machine
  import opened Interpreter

  /** ANNN loads NNN into I and changes nothing else. */
  lemma SetIndex(s: State, key: Key, rnd: byte, x: nibble, nn: byte)
    requires Valid(s) && ImmAt(s, 0xA, x, nn)
    ensures Step(s, key, rnd) == Ok(s.(pc := s.pc + 2, i := 256 * x + nn))
  {
    StepAt(s, key, rnd, 0xA, x, nn);
  }

  /** A step on FXNN is the `switch (lsb)` of category F, with PC advanced. */
  lemma StepMisc(s: State, key: Key, rnd: byte, x: nibble, nn: byte)
    requires Valid(s) && ImmAt(s, 0xF, x, nn)
    ensures Step(s, key, rnd) == Misc(s.(pc := s.pc + 2), x, nn, key)
  {
    StepAt(s, key, rnd, 0xF, x, nn);
  }

  /** FX07 copies the delay timer into VX; FX15 and FX18 copy VX into the
      delay and the sound timer. */
  lemma Timers(s: State, key: Key, rnd: byte, x: nibble, nn: byte)
    requires Valid(s) && ImmAt(s, 0xF, x, nn) && nn in {0x07, 0x15, 0x18}
    ensures nn == 0x07 ==> Step(s, key, rnd) == Ok(s.(pc := s.pc + 2, v := s.v[x := s.delay]))
    ensures nn == 0x15 ==> Step(s, key, rnd) == Ok(s.(pc := s.pc + 2, delay := s.v[x]))
    ensures nn == 0x18 ==> Step(s, key, rnd) == Ok(s.(pc := s.pc + 2, sound := s.v[x]))
  {
    StepMisc(s, key, rnd, x, nn);
  }

  /** FX1E adds VX to I modulo 65536; when the new I is 0x1000 or more VF
      becomes 1, otherwise VF keeps its value.  Nothing else changes. */
  lemma AddToIndex(s: State, key: Key, rnd: byte, x: nibble)
    requires Valid(s) && ImmAt(s, 0xF, x, 0x1E)
    ensures Step(s, key, rnd).Ok?
    ensures var t := Step(s, key, rnd).value;
      && t.i == (s.i + s.v[x]) % 0x1_0000
      && t.v[0xF] == (if t.i >= 0x1000 then 1 else s.v[0xF])
      && (forall r :: 0 <= r < 15 ==> t.v[r] == s.v[r])
      && t == s.(pc := s.pc + 2, i := t.i, v := t.v)
  {
    StepMisc(s, key, rnd, x, 0x1E);
  }

  /** FX29 points I at the glyph of the low nibble of VX: 0x50 + 5 * d,
      which is at most 0x9B, so the whole glyph lies inside the font. */
  lemma FontCharacter(s: State, key: Key, rnd: byte, x: nibble)
    requires Valid(s) && ImmAt(s, 0xF, x, 0x29)
    ensures Step(s, key, rnd) == Ok(s.(pc := s.pc + 2, i := FontBase + 5 * (s.v[x] % 16)))
    ensures FontBase <= Step(s, key, rnd).value.i <= 0x9B
    ensures Step(s, key, rnd).value.i + 5 <= FontBase + |FontTable|
  {
    StepMisc(s, key, rnd, x, 0x29);
    LowNibble(s.v[x]);
  }

  /** With the font in place, the five bytes FX29 points I at are the
      glyph of the hexadecimal digit VX & 0xF. */
  lemma FontGlyph(s: State, key: Key, rnd: byte, x: nibble, k: nat)
    requires Valid(s) && ImmAt(s, 0xF, x, 0x29) && k < 5
    requires s.mem[FontBase..FontBase + |FontTable|] == FontTable
    ensures Step(s, key, rnd).Ok?
    ensures var t := Step(s, key, rnd).value;
      t.mem[t.i + k] == FontTable[5 * (s.v[x] % 16) + k]
  {
    FontCharacter(s, key, rnd, x);
    var d := s.v[x] % 16;
    assert s.mem[FontBase..FontBase + |FontTable|][5 * d + k] == s.mem[FontBase + 5 * d + k];
  }

  /** A step on FX33 is the decimal conversion of VX. */
  lemma StepBcd(s: State, key: Key, rnd: byte, x: nibble)
    requires Valid(s) && ImmAt(s, 0xF, x, 0x33)
    ensures Step(s, key, rnd) == Bcd(s.(pc := s.pc + 2), s.v[x])
  {
    StepAt(s, key, rnd, 0xF, x, 0x33);
  }

  /** FX33 faults exactly when the first byte it writes, its highest
      address, lies past memory: I + 2 for three digits, I + 1 for two, I for
      one.  A faulting FX33 has therefore written nothing. */
  lemma BcdFaults(s: State, n: byte)
    requires Valid(s)
    ensures var last := if n >= 100 then s.i + 2 else if n >= 10 then s.i + 1 else s.i;
      Bcd(s, n).Err? <==> last >= MemSize
  {
  }

  /** A value of 100 or more is stored as three decimal digits at I, I + 1,
      I + 2, most significant first, and nothing else changes. */
  lemma BcdThreeDigits(s: State, n: byte)
    requires Valid(s) && n >= 100 && s.i + 2 < MemSize
    ensures Bcd(s, n).Ok?
    ensures var m := Bcd(s, n).value.mem;
      && m[s.i] < 10 && m[s.i + 1] < 10 && m[s.i + 2] < 10
      && 100 * m[s.i] + 10 * m[s.i + 1] + m[s.i + 2] == n
      && (forall a :: 0 <= a < MemSize && !(s.i <= a <= s.i + 2) ==> m[a] == s.mem[a])
      && Bcd(s, n).value == s.(mem := m)
  {
    var m := Bcd(s, n).value.mem;
    assert m[s.i + 2] == n % 10;
    assert (n - n % 10) / 10 == n / 10;
    assert m[s.i + 1] == n / 10 % 10;
    assert m[s.i] == n / 10 / 10;
  }

  /** A value from 10 to 99 is stored left-aligned: its tens at I and its
      units at I + 1, leaving I + 2 and everything else as it was. */
  lemma BcdTwoDigits(s: State, n: byte)
    requires Valid(s) && 10 <= n < 100 && s.i + 1 < MemSize
    ensures Bcd(s, n).Ok?
    ensures var m := Bcd(s, n).value.mem;
      && m[s.i] == n / 10 && m[s.i + 1] == n % 10
      && 10 * m[s.i] + m[s.i + 1] == n
      && (forall a :: 0 <= a < MemSize && !(s.i <= a <= s.i + 1) ==> m[a] == s.mem[a])
      && Bcd(s, n).value == s.(mem := m)
  {
    assert (n - n % 10) / 10 == n / 10;
  }

  /** A value below 10 is stored as one digit at I, leaving I + 1 and I + 2
      as they were. */
  lemma BcdOneDigit(s: State, n: byte)
    requires Valid(s) && n < 10 && s.i < MemSize
    ensures Bcd(s, n) == Ok(s.(mem := s.mem[s.i := n]))
  {
  }

  /** The FX55 branch: it faults exactly when I + X lies past memory;
      otherwise it copies V0..VX to I..I+X and changes nothing but memory. */
  lemma MiscStore(s: State, key: Key, x: nibble)
    requires Valid(s)
    ensures Misc(s, x, 0x55, key).Err? <==> s.i + x >= MemSize
    ensures Misc(s, x, 0x55, key).Err? ==> Misc(s, x, 0x55, key).fault.IndexOutOfRange?
    ensures Misc(s, x, 0x55, key).Ok? ==>
      var t := Misc(s, x, 0x55, key).value;
      && (forall k :: 0 <= k <= x ==> t.mem[s.i + k] == s.v[k])
      && (forall a :: 0 <= a < MemSize && !(s.i <= a <= s.i + x) ==> t.mem[a] == s.mem[a])
      && t == s.(mem := t.mem)
  {
  }

  /** The FX65 branch: it faults exactly when I + X lies past memory;
      otherwise it copies I..I+X to V0..VX and changes nothing but those
      registers. */
  lemma MiscLoad(s: State, key: Key, x: nibble)
    requires Valid(s)
    ensures Misc(s, x, 0x65, key).Err? <==> s.i + x >= MemSize
    ensures Misc(s, x, 0x65, key).Err? ==> Misc(s, x, 0x65, key).fault.IndexOutOfRange?
    ensures Misc(s, x, 0x65, key).Ok? ==>
      var t := Misc(s, x, 0x65, key).value;
      && (forall k :: 0 <= k <= x ==> t.v[k] == s.mem[s.i + k])
      && (forall r :: x < r < 16 ==> t.v[r] == s.v[r])
      && t == s.(v := t.v)
  {
  }

  /** FX55 faults exactly when I + X lies past memory; otherwise it copies
      V0..VX to I..I+X, keeps I, the registers and the rest of memory. */
  lemma StoreRegisters(s: State, key: Key, rnd: byte, x: nibble)
    requires Valid(s) && ImmAt(s, 0xF, x, 0x55)
    ensures Step(s, key, rnd).Err? <==> s.i + x >= MemSize
    ensures Step(s, key, rnd).Err? ==> Step(s, key, rnd).fault.IndexOutOfRange?
    ensures Step(s, key, rnd).Ok? ==>
      var t := Step(s, key, rnd).value;
      && (forall k :: 0 <= k <= x ==> t.mem[s.i + k] == s.v[k])
      && (forall a :: 0 <= a < MemSize && !(s.i <= a <= s.i + x) ==> t.mem[a] == s.mem[a])
      && t == s.(pc := s.pc + 2, mem := t.mem)
  {
    StepMisc(s, key, rnd, x, 0x55);
    MiscStore(s.(pc := s.pc + 2), key, x);
  }

  /** FX65 faults exactly when I + X lies past memory; otherwise it copies
      I..I+X to V0..VX, keeps I, memory and the registers above VX. */
  lemma LoadRegisters(s: State, key: Key, rnd: byte, x: nibble)
    requires Valid(s) && ImmAt(s, 0xF, x, 0x65)
    ensures Step(s, key, rnd).Err? <==> s.i + x >= MemSize
    ensures Step(s, key, rnd).Err? ==> Step(s, key, rnd).fault.IndexOutOfRange?
    ensures Step(s, key, rnd).Ok? ==>
      var t := Step(s, key, rnd).value;
      && (forall k :: 0 <= k <= x ==> t.v[k] == s.mem[s.i + k])
      && (forall r :: x < r < 16 ==> t.v[r] == s.v[r])
      && t == s.(pc := s.pc + 2, v := t.v)
  {
    StepMisc(s, key, rnd, x, 0x65);
    MiscLoad(s.(pc := s.pc + 2), key, x);
  }

  /** FX55 followed, with I and memory as it left them, by FX65 with the same
      X gives back V0..VX; neither instruction moves I. */
  lemma StoreThenLoad(s: State, u: State, key: Key, r1: byte, r2: byte, x: nibble)
    requires Valid(s) && ImmAt(s, 0xF, x, 0x55) && s.i + x < MemSize
    requires Valid(u) && ImmAt(u, 0xF, x, 0x65)
    requires u.i == s.i && u.mem == Step(s, key, r1).value.mem
    ensures Step(s, key, r1).Ok? && Step(s, key, r1).value.i == s.i
    ensures Step(u, key, r2).Ok? && Step(u, key, r2).value.i == s.i
    ensures forall k :: 0 <= k <= x ==> Step(u, key, r2).value.v[k] == s.v[k]
  {
    StoreRegisters(s, key, r1, x);
    LoadRegisters(u, key, r2, x);
  }
}
